=== FILE: README.md ===
# carte-blanche core in Dafny

carte-blanche is a keyboard-driven notes application. Cards live in a flat database. A card is
either a note (markdown text) or an index (an ordered list of card identifiers). The user
browses the database through a stack of breadcrumbs. Each breadcrumb is an index being shown
plus the focused position in it, where -1 means nothing is focused. Every note `n` owns two
link indices, `n-incoming` and `n-outgoing`. Inserting into or deleting from one of them also
updates the opposite index of the other card.

This project models, as pure functions over immutable values:

- **`State` and `interpretKeypress`** (`src/model.ts`).
  - Module `Cards`: the card store, the `-outgoing`/`-incoming` naming rule, and JavaScript's
    `splice` and `findIndex`.
  - Module `Model`: each `State` method as a function from state to state. A `Result` carries
    the cases where the source would throw.
  - Module `Navigation`: focus-bounds preservation.
  - Module `LinkGraph`: the link-symmetry invariant.
  - Module `Keypress`: the key-to-transition function.
- **Term counting and posting updates** (`src/search.ts`): module `Search`.
- **The OAuth fragment parser `parseQueryString`** (`src/cloud.ts`): module `QueryString`.
- **The editor's plain-text codec `serialize`/`deserialize`**: module `SlateCodec`. The two
  copies, in `src/NoteEditor.tsx` and `src/components/NoteEditor.tsx`, are textually the same
  function, so one definition models both.
- **What a card shows and when it is highlighted or edited** (`src/components/NotePreview.tsx`,
  `src/components/Note.tsx`): module `NoteView`.

Generated identifiers (`uuid()`) are parameters, as are `decodeURIComponent` and the stemming
tokenizer. `decodeURIComponent` returns `None` where the real function throws.

## Behaviour worth knowing

Several behaviours of the source look accidental. The model keeps them, because it follows the
code, and proves each one:

- `delete` on a link index whose partner entry is missing:
  - `findIndex` yields -1.
  - `splice(-1, 1)` then drops the LAST element of the opposite link index.
  - See `Model.Unlink`.
- `deleteSelection` performs no link maintenance, so backspace and cut can break link symmetry.
  `LinkGraph.DeleteSelectionBreaksLinks` exhibits a two-card store where this happens.
- `shift+up` with nothing focused anchors the selection at -1.
  - Backspace right after it does nothing, because backspace needs a focused card.
  - Once `down` has focused the first card, backspace calls `splice(-1, 2)`. That removes the
    last card of the index instead of the highlighted range, and leaves nothing focused.
  - See `Keypress.ShiftUpDownBackspace`.
- Serializing an empty document gives `""`, which deserializes to one empty paragraph. A
  paragraph string that contains a line break comes back as two paragraphs.
- `enter` pushes a breadcrumb whose focus is always -1, even when the entered index has cards
  (`src/model.ts:140`).

## Model

| member | source | states |
|---|---|---|
| Cards.IndexAt | src/model.ts:125-127 | An index is read only where the identifier exists and names an index card. |
| Cards.BackLink | src/model.ts:173-185 | A link update is due exactly when the current index ends in `-outgoing` or `-incoming`. Its target is the inserted card's opposite link index. Its owner is the index's note, recovered by dropping the 9-character suffix. |
| Cards.SuffixLengths | src/model.ts:177 | Both suffixes are exactly the 9 characters that `substr` drops. |
| Cards.SuffixesDiffer | src/model.ts:176-185 | No outgoing link index is also an incoming one, so an update never touches the index being edited. |
| Cards.SuffixInjective | src/model.ts:177 | Dropping the suffix recovers the owner uniquely. |
| Cards.BackLinkElsewhere | src/model.ts:176-185 | The opposite index a link update goes to is never the index being edited. |
| Cards.SpliceStart | src/model.ts:171 | `splice`'s start is clamped to the array: a start past the end gives the length, and a start before minus the length gives 0. A negative start in between counts back from the end. |
| Cards.Splice | src/model.ts:171-231 | The result keeps everything before the start, then holds the inserted items, then everything after the removed run. The removed run is empty for a delete count of 0 or less. Otherwise it is the delete count, or all that is left after the start when fewer remain. |
| Cards.SpliceInsert | src/model.ts:171 | Splicing one element in with delete count 0 places it at the given position. |
| Cards.SpliceInsertMultiset | src/model.ts:171 | Whatever the start, an insertion adds exactly the inserted element. |
| Cards.SpliceRemoveMultiset | src/model.ts:189 | Removing at an in-range position takes out exactly that element and keeps the order of the rest. |
| Cards.SpliceRemoveRange | src/model.ts:231 | Removing `upper - lower + 1` elements at `lower` cuts out the inclusive range. |
| Cards.SpliceRemoveLast | src/model.ts:203 | `splice(-1, 1)` drops the last element of a non-empty array. |
| Cards.SplicePastEnd | src/model.ts:226 | A removal that starts at or past the end leaves the array unchanged. |
| Cards.SpliceRemove | src/model.ts:231 | A removal of a positive count at any start keeps everything before the normalised start and everything after the removed run, which stops at the end. |
| Cards.SpliceOne | src/model.ts:226 | `splice(p, 1)` at any `p`: an in-range position loses its element, a position past the end changes nothing, and a negative position removes the element it counts back to from the end. |
| Cards.SpliceCut | src/model.ts:231 | Cutting an inclusive range removes exactly it when it lies inside the array. A range reaching past the end cuts to the end, one starting past the end cuts nothing, and a negative lower end counts back from the end. |
| Cards.SpliceInsertAt | src/model.ts:171 | Inserting one element at any start puts it at the normalised start. A start past the end appends it. |
| Cards.FindIndex | src/model.ts:202 | Returns the first position holding the element, and -1 exactly when the element is absent. |
| Model.Init | src/model.ts:106-114 | A fresh state has one empty root index, named by the given identifier, which is also its root. It has one breadcrumb on it with nothing focused, viewing mode, an empty clipboard and no anchor. |
| Model.Enter | src/model.ts:139-141 | Pushes a breadcrumb with focus -1 and changes nothing else: the store, the root, the mode, the clipboard and the anchor are kept. |
| Model.Exit | src/model.ts:142-146 | Pops the top breadcrumb unless it is the only one, and changes nothing else: the store, the root, the mode, the clipboard and the anchor are kept. |
| Model.GoUp | src/model.ts:147-161 | The focus moves up by one exactly when viewing above -1 or selecting above 0. Otherwise the state is unchanged. |
| Model.GoDown | src/model.ts:162-166 | The focus moves down by one exactly when it is not on the last card. Fails when the current index is missing. |
| Model.InsertAfter | src/model.ts:170-186 | Inserts the identifier right after the position. A position at or past the end appends it, and a position before -1 counts back from the end as `splice` does. In a link index it also appends the owner to the card's opposite link index. Nothing outside those two entries changes. Fails exactly when one of the two indices is missing. |
| Model.ClampFocus | src/model.ts:190-193 | Pulls the focus back by one exactly when it is past the last card. |
| Model.Unlink | src/model.ts:199-209 | Removes the first occurrence of the owner. When the owner is absent, removes the last element instead. Only the target index changes. |
| Model.SpliceOut | src/model.ts:202-203 | Splicing at `findIndex` drops the first occurrence of the owner, taking exactly one occurrence out. When the owner is absent it drops the last element. |
| Model.Delete | src/model.ts:187-211 | Succeeds exactly when the current index exists and, for an in-range position in a link index, the card's opposite link index exists too. For an out-of-range position it succeeds only in a plain index. There only the current index changes: a position past the end removes nothing, and a negative position removes the card it counts back to from the end. An in-range deletion is `Model.DeleteAt`. In every case the focus is pulled back by one exactly when it is past the end of the resulting index. The store keeps its keys and nothing but the store and the focus changes. |
| Model.DeleteAt | src/model.ts:187-211 | Deleting an in-range position removes that card and keeps the order of the rest. It pulls the focus back by one when it fell off the end. Only the current index and, for a link index, the card's opposite link index change. That opposite index loses the first occurrence of the owner, or its last element when the owner is absent. Fails exactly when that opposite index is missing. |
| Model.NewNote | src/model.ts:212-218 | Adds an empty note and its two empty link indices under unused identifiers. Keeps every existing entry. |
| Model.NewIndex | src/model.ts:219-223 | Adds an empty index under an unused identifier. Keeps every existing entry. |
| Model.DeleteSelection | src/model.ts:224-240 | Succeeds exactly when the current index exists and the state is not selecting without an anchor. Outside selecting, the mode and the anchor are kept, and the focus is pulled back by one exactly when it is past the end of the resulting index. When viewing with a focused card, that card is removed. When editing, the store is unchanged. When selecting, returns to viewing with no anchor and cuts the range as `Model.RangeRemoved` says for every lower and upper end. It focuses the lower end, pulled back by one exactly when that is past the end of the result. Only the current index changes. |
| Model.DeleteIn | src/model.ts:224-240 | `deleteSelection` once the current index is known, with the same promises as `Model.DeleteSelection`. |
| Model.DropAt | src/model.ts:189-193 | Splicing out an in-range position removes exactly that card and pulls back a focus that fell off the end. Only the current index changes. |
| Model.StoreClamped | src/model.ts:237-239 | Stores the new current index and pulls the focus back by one exactly when it is past that index's end. Only the current index and the focus change. |
| Model.RemoveAt | src/model.ts:225-239 | `splice(p, 1)` on the current index, shared by the viewing half of `deleteSelection` and by `delete` in a plain index: a card at an in-range position is removed. A focus past the end removes nothing. A negative focus removes the card it counts back to from the end, so -1 removes the last card. The focus is pulled back by one exactly when it is past the end of the result. Only the current index changes. |
| Model.RemoveRange | src/model.ts:228-239 | The selecting half of `deleteSelection`: an in-range selection is cut out, and the focus lands on the lower end, or on the card before it when nothing follows the range. For any range the result meets `Model.RangeRemoved`: a range reaching past the end cuts to the end, one starting past the end cuts nothing, and a negative lower end counts back from the end. The state returns to viewing with no anchor. |
| Model.CutBySplice | src/model.ts:231-239 | The splice of the selecting half, followed by the clamp of the lower end, gives what `Model.CutTo` describes for every range. |
| Model.Copy | src/model.ts:241-254 | When viewing, the clipboard becomes the focused card. When selecting with an anchor, copying succeeds exactly when the current index exists and the range lies inside it. The clipboard becomes the range's cards in index order, whichever end the anchor is. With no anchor the loop never runs and the current index is never read, so copying always succeeds with an empty clipboard. Nothing else changes. |
| Model.InsertAfterKeepsIndices | src/model.ts:170-186 | A successful insertion neither adds nor removes an index. |
| Model.PasteStep | src/model.ts:256-258 | After the first item is inserted, the remaining items find every opposite link index that all the items found before. |
| Model.PasteItems | src/model.ts:256-258 | Succeeds exactly when there is nothing to insert, or the current index exists and every item's opposite link index exists. Inserting the items one after another puts the whole sequence, in order, after the position. |
| Model.Paste | src/model.ts:255-259 | Succeeds exactly when the clipboard is empty, or the current index exists and every clipboard card's opposite link index exists. So pasting into a plain index always succeeds. The clipboard goes in right after the focused card. Focus and clipboard are kept. |
| Model.InsertTwice | src/model.ts:257 | Inserting after the item just inserted continues the run in order. |
| Navigation.InitFocusInBounds | src/model.ts:106-114 | A fresh state has its focus in bounds, and escape at the root does nothing. |
| Navigation.ExitUndoesEnter | src/model.ts:139-146 | Leaving a breadcrumb just entered restores the state. |
| Navigation.GoUpInBounds | src/model.ts:147-161 | Moving up keeps the focus in bounds. While selecting it never goes above the first card. While editing it does nothing. |
| Navigation.GoDownInBounds | src/model.ts:162-166 | Moving down keeps the focus in bounds and never moves it up. |
| Navigation.InsertAfterInBounds | src/model.ts:170-186 | Insertion lengthens the current index by one and keeps the focus in bounds. |
| Navigation.PasteItemsInBounds | src/model.ts:255-259 | Pasting lengthens the current index by the number of items and keeps the focus in bounds. |
| Navigation.PasteInBounds | src/model.ts:255-259 | Paste keeps the focus in bounds. |
| Navigation.DeleteInBounds | src/model.ts:187-193 | After a deletion the focus is still in bounds. |
| Navigation.DeleteSelectionInBounds | src/model.ts:224-240 | After removing the selection, with an anchor in bounds, the focus is still in bounds. |
| Navigation.RangeRemovalInBounds | src/model.ts:228-239 | Removing a range and focusing its lower end keeps the focus in bounds. |
| Navigation.NewNoteInBounds | src/model.ts:212-218 | Creating a note leaves the current index and the focus as they were. |
| Navigation.CopiedRange | src/model.ts:245-253 | A successful copy of a selection puts exactly the range's cards on the clipboard and changes nothing else. |
| Navigation.PasteClipboard | src/model.ts:255-259 | With the focus in bounds, pasting given cards succeeds exactly when their opposite link indices exist. They then land right after the focused card. |
| Navigation.CopyThenPaste | src/model.ts:241-259 | Pasting right after copying a range succeeds exactly when every copied card's opposite link index exists, which always holds in a plain index. It puts an in-order copy of the range right after the focused card. With no anchor nothing is copied and the index is unchanged. |
| LinkGraph.InitLinksSymmetric | src/model.ts:106-114 | A fresh store satisfies the link convention: `b` occurs in `a-outgoing` as often as `a` occurs in `b-incoming`. |
| LinkGraph.NewNoteKeepsLinks | src/model.ts:212-218 | Creating a note keeps the link convention. |
| LinkGraph.NewIndexKeepsLinks | src/model.ts:219-223 | Creating an index keeps the link convention. |
| LinkGraph.InsertAfterKeepsLinks | src/model.ts:170-186 | Inserting into any index keeps the link convention. |
| LinkGraph.DeleteKeepsLinks | src/model.ts:187-211 | Deleting from any index keeps the link convention. |
| LinkGraph.DeleteAtKeepsLinks | src/model.ts:187-211 | Deleting an in-range position from any index keeps the link convention. |
| LinkGraph.DeleteOutsideKeepsLinks | src/model.ts:187-193 | Deleting at an out-of-range position keeps the link convention. |
| LinkGraph.DeletePlainKeepsLinks | src/model.ts:187-193 | Deleting from an index that is not a link index keeps the link convention. |
| LinkGraph.DeleteOutgoingKeepsLinks | src/model.ts:194-209 | Removing `x` from `o-outgoing` also removes `o` from `x-incoming`, where the convention guarantees it is listed. |
| LinkGraph.OutgoingEdge | src/model.ts:194-209 | In `o-outgoing`, deleting `x` edits exactly `o-outgoing` and `x-incoming`, taking one `x` and one `o` out of them. |
| LinkGraph.OutgoingOwnerListed | src/model.ts:194-209 | Under the convention, the owner of `o-outgoing` is listed in the incoming links of every card listed there. |
| LinkGraph.DeleteIncomingKeepsLinks | src/model.ts:194-209 | Removing `x` from `o-incoming` also removes `o` from `x-outgoing`. |
| LinkGraph.IncomingEdge | src/model.ts:194-209 | In `o-incoming`, deleting `x` edits exactly `o-incoming` and `x-outgoing`, taking one `x` and one `o` out of them. |
| LinkGraph.IncomingOwnerListed | src/model.ts:194-209 | Under the convention, the owner of `o-incoming` is listed in the outgoing links of every card listed there. |
| LinkGraph.PasteItemsKeepsLinks | src/model.ts:255-259 | Pasting any items keeps the link convention. |
| LinkGraph.PasteKeepsLinks | src/model.ts:255-259 | Paste keeps the link convention. |
| LinkGraph.ListedHasBackIndex | src/model.ts:173-185 | Under the convention, every card listed in a link index has the opposite link index that `insertAfter` appends to. |
| LinkGraph.PasteOwnCards | src/model.ts:255-259 | Under the convention, pasting cards taken from the current index back into it always succeeds. |
| LinkGraph.CopyThenPasteSucceeds | src/model.ts:241-259 | Under the convention, a paste right after a successful copy, viewing or selecting, always succeeds. |
| LinkGraph.EdgeAdded | src/model.ts:171-185 | Adding one edge on both of its sides keeps the convention. |
| LinkGraph.EdgeRemoved | src/model.ts:189-209 | Removing one existing edge on both of its sides keeps the convention. |
| LinkGraph.OneEdgeSymmetric | src/model.ts:173-185 | A store holding one link, recorded on both sides, satisfies the convention. |
| LinkGraph.DeleteSelectionBreaksLinks | src/model.ts:224-240 | Some store satisfies the convention but does not after one `deleteSelection`, because only the current index changes. |
| Keypress.StartSelecting | src/model.ts:73-86 | Entering selection mode sets the anchor to the focus only when no anchor is set. |
| Keypress.ViewingKeys | src/model.ts:27-49 | The viewing block keeps the root, never drops a key from the store, and ignores the unbound keys. |
| Keypress.AddNote | src/model.ts:32-37 | Space while viewing keeps the root and never drops a key from the store. |
| Keypress.BrowsingKeys | src/model.ts:50-87 | The browsing block keeps the root and the store's keys, and ignores the unbound keys. |
| Keypress.EditingKeys | src/model.ts:88-92 | The editing block never changes the store or the root, and only escape changes anything. |
| Keypress.InterpretKeypress | src/model.ts:26-93 | A keypress keeps the root and never drops a key from the store. Left, right, undo, redo and shift+space change nothing. |
| Keypress.EditingOnlyEscapes | src/model.ts:88-92 | While editing, escape returns to viewing and every other key leaves the state unchanged. |
| Keypress.EnterEditsOnlyFocused | src/model.ts:28-30 | Enter starts editing exactly when viewing with a focused card. Otherwise nothing changes. |
| Keypress.ShiftSetsAnchorOnce | src/model.ts:73-86 | Shift+up and shift+down end in selecting mode. The anchor is set to the old focus only when none was set. |
| Keypress.CopyAndEscapeEndViewing | src/model.ts:54-66 | Copy and escape while browsing end in viewing with no anchor. Copy fills the clipboard as `copy()` does. |
| Keypress.EscapeWhileViewingExits | src/model.ts:31-33 | Escape while viewing pops a breadcrumb, never the last one, and clears the anchor. |
| Keypress.SpaceCreatesNote | src/model.ts:34-39 | Space while viewing with the focus in bounds always succeeds. It inserts a new empty note right after the focus, focuses it and starts editing. |
| Keypress.ShiftUpWithoutFocus | src/model.ts:80-86 | Shift+up with nothing focused anchors the selection at -1. |
| Keypress.AnchorMinusOneRemovesLast | src/model.ts:229-238 | With the anchor at -1, removing the selection drops the index's last card and leaves nothing focused. |
| Keypress.ShiftUpDownBackspace | src/model.ts:50-86 | After shift+up with nothing focused, backspace does nothing. After a further down, backspace removes the last card of the index instead of the highlighted range, leaves nothing focused and returns to viewing. |
| Keypress.BackspaceNeedsFocus | src/model.ts:50-52 | Backspace does nothing unless a card is focused. |
| Keypress.BackspaceDeletesSelection | src/model.ts:50-52 | While selecting with a card focused, backspace is `deleteSelection`. |
| Keypress.DownFromNothing | src/model.ts:70-72 | With nothing focused in a non-empty index, down focuses the first card and changes nothing else. |
| Keypress.ViewingKeysKeep | src/model.ts:27-49 | The viewing block keeps focus and anchor in bounds, for every key but escape. |
| Keypress.BrowsingKeysKeep | src/model.ts:50-87 | The browsing block keeps focus and anchor in bounds, and keeps the rule that an anchor exists exactly while selecting. |
| Keypress.KeypressKeepsInvariant | src/model.ts:26-93 | Every key except escape while viewing keeps three things: the focus in bounds, the anchor in bounds, and an anchor exactly while selecting. |
| Keypress.ViewingKeysKeepLinks | src/model.ts:27-49 | The viewing block keeps the link convention. |
| Keypress.BrowsingKeysKeepDatabase | src/model.ts:50-87 | Every browsing key except backspace and cut leaves the store unchanged. |
| Keypress.KeypressKeepsLinks | src/model.ts:26-93 | Every key except backspace and cut keeps the link convention. |
| Search.GetFeatures | src/search.ts:42-50 | The vector's keys are exactly the tokens. Each count is the token's number of occurrences, as in the reference count map. |
| Search.CountsTotal | src/search.ts:46-48 | The counts of a token sequence add up to its length. |
| Search.AddToIndex | src/search.ts:52-56 | Every token of the vector gives the card the token's count, overwriting any earlier weight. Other cards and other tokens are unchanged. Fails exactly when a token has no postings. |
| Search.RemoveFromIndex | src/search.ts:58-62 | Every token of the vector loses the card's posting. Other cards and other tokens are unchanged. Fails exactly when a token has no postings. |
| Search.AddIdempotent | src/search.ts:52-56 | Indexing the same card twice with the same vector is indexing it once. |
| Search.RemoveIdempotent | src/search.ts:58-62 | Removing twice is removing once. |
| Search.AddThenRemove | src/search.ts:52-62 | Adding a card not yet indexed and then removing it with the same vector restores the index. |
| Search.ReindexKeepsStale | src/search.ts:52-56 | Re-adding with a new vector keeps the card under tokens only the old vector had. |
| QueryString.StripLead | src/cloud.ts:22 | Removes exactly one leading `?`, `#` or `&`, and only when present. |
| QueryString.PlusToSpace | src/cloud.ts:29 | Keeps the length. Every `+` becomes a space, and every other character is kept. |
| QueryString.RawParams | src/cloud.ts:22-28 | An input that is empty after trimming and stripping has no parameters. Otherwise the parameters joined with `&` give back the stripped input, and no parameter holds an `&`. |
| QueryString.RawPair | src/cloud.ts:29-33 | The key is the text before the first `=`. The value is everything after it, or null when there is no `=`. |
| QueryString.DecodeParam | src/cloud.ts:35-39 | A parameter decodes exactly when its key decodes and its value, if present, decodes too. |
| QueryString.Accumulate | src/cloud.ts:41-47 | Records a value under its key and leaves every other key unchanged. |
| QueryString.AccumulateValues | src/cloud.ts:41-47 | A key's values grow by exactly the new value, in order. Lists always hold at least two values. |
| QueryString.ParseMatchesReference | src/cloud.ts:15-51 | A key is present exactly when some parameter gives it. It holds the list of all its values, in order, exactly when given twice or more, and a single value otherwise. Parsing fails exactly when some part does not decode. |
| QueryString.Parse | src/cloud.ts:15-51 | Parsing succeeds exactly when every parameter decodes. An input that is empty after trimming and stripping gives the empty result. |
| QueryString.EmptyInput | src/cloud.ts:22-26 | Input that is empty after trimming and stripping gives an empty result. |
| QueryString.DecodeParamOnce | src/cloud.ts:29-39 | A decoded parameter's key, and its value when present, are the raw parts passed through the decoder exactly once, after `+` became a space and the parameter was cut at its first `=`. |
| QueryString.DecodeAllOnce | src/cloud.ts:28-39 | The list of decoded pairs holds one pair per parameter, in order, each decoded independently of the others. |
| QueryString.TotalDecodeParses | src/cloud.ts:35-39 | With a decoder that never throws, parsing never fails. |
| QueryString.ValueKeepsEquals | src/cloud.ts:32-33 | Every `=` after the first stays in the value. |
| QueryString.OnlyOneLeadStripped | src/cloud.ts:22 | For `??key` the key `?key` is kept, with null value. |
| QueryString.RepeatedKey | src/cloud.ts:41-47 | `k=a&k&k=b` gives `k` the list `[a, null, b]`. |
| SlateCodec.NodeStringIsLeaves | src/NoteEditor.tsx:36 | A node's string is the concatenation of its text leaves in document order. |
| SlateCodec.Paragraphs | src/NoteEditor.tsx:34-36 | There is one string per top-level node, and it is that node's text. |
| SlateCodec.Serialize | src/NoteEditor.tsx:32-40 | The empty document gives the empty text, and a one-paragraph document gives that paragraph's string, line breaks included. For a non-empty document without line breaks inside paragraphs, cutting the text at line breaks gives back the paragraph strings. |
| SlateCodec.SerializeAppend | src/NoteEditor.tsx:32-40 | For any two non-empty documents, serializing their concatenation gives the first text, one line break, then the second text. With the one-paragraph case this fixes the result for every document, whatever its paragraphs hold. |
| SlateCodec.Deserialize | src/components/NoteEditor.tsx:64-71 | There is one paragraph per line, each holding a single text leaf without a line break. |
| SlateCodec.SerializeDeserialize | src/NoteEditor.tsx:32-50 | Deserializing any text and serializing it again gives back the text. |
| SlateCodec.DeserializeSerialize | src/components/NoteEditor.tsx:53-71 | A non-empty document with no line break in any paragraph comes back as the same paragraphs, each with its leaves merged into one. |
| SlateCodec.PlainDocumentRoundTrip | src/NoteEditor.tsx:32-50 | A document already in the deserializer's shape comes back unchanged. |
| SlateCodec.EmptyDocumentNotRestored | src/NoteEditor.tsx:43-50 | The empty text becomes one empty paragraph, so the empty document is not restored. |
| SlateCodec.BreakInParagraphSplits | src/NoteEditor.tsx:32-50 | A paragraph holding a line break comes back as two paragraphs. |
| NoteView.IndexPreviewCount | src/components/NotePreview.tsx:13-18 | An index's label holds, in decimal digits between its fixed prefix and suffix, exactly its number of cards. |
| NoteView.Preview | src/components/NotePreview.tsx:13-24 | A note with fewer than twenty spaces is shown whole. A longer note's preview ends in `...`. An index shows its label. |
| NoteView.ShortNoteShownWhole | src/components/NotePreview.tsx:21-24 | A note of at most twenty space-separated words is shown in full. |
| NoteView.LongNoteCut | src/components/NotePreview.tsx:21-24 | A longer note is shown up to its twentieth space, followed by `...`. What is shown is a proper prefix of the text. |
| NoteView.IsSelected | src/components/Note.tsx:23-25 | A position is highlighted exactly when selecting with an anchor and the position lies between focus and anchor, in either order. |
| NoteView.IsFocused | src/components/Note.tsx:22 | A position is focused exactly when it equals the focus. |
| NoteView.UsesEditor | src/components/Note.tsx:27-31 | Only the focused card shows the editor, and only while editing. While editing, the focused card always does. |
| NoteView.OneEditor | src/components/Note.tsx:22-37 | At most one position is focused, and at most one shows the editor: the focused one, while editing. That one is never highlighted, and outside selecting nothing is highlighted. |
| NoteView.EndsHighlighted | src/components/Note.tsx:23-25 | While selecting, both the focused card and the anchor card are highlighted. |
| NoteView.HighlightedAreCopied | src/model.ts:245-253 | Copying while selecting puts exactly the highlighted cards on the clipboard, in order. With no anchor nothing is highlighted and nothing is copied. |
| NoteView.HighlightedAreDeleted | src/model.ts:228-235 | Removing an in-range selection succeeds, removes exactly the highlighted cards and keeps the rest in order. |
| NoteView.UnselectedKept | src/model.ts:228-235 | The highlighted positions are exactly the inclusive range. Cutting it out keeps every card that is not highlighted, shifted left past the range. |

## Left out

- Mutation in place: the model has no aliasing, and source methods that mutate the state become
  functions returning a new state.
- Partial effects before a throw: where the source throws (a missing index cast to `Index`, a
  read past an array), the model returns `Err` and drops any changes already made.
- Model.Copy: with an anchor outside the index, or in viewing mode with the focus outside it,
  the source pushes `undefined` onto the clipboard. The model reports `OutOfRange` instead.
  With an anchor and a current identifier that names a note, the source copies characters of
  the note's text. The model reports `NotAnIndex` instead.
- Model.DeleteSelection: selecting without an anchor gives `MissingAnchor`. The source would
  splice nothing and then set the focus to `NaN`, which an integer focus cannot hold. No key
  reaches that state, because an anchor is set exactly while selecting
  (`Keypress.KeypressKeepsInvariant`).
- Model.Delete: with a position outside the index, the removed identifier is `undefined`. A
  plain index is still spliced, while in a link index the lookup of `undefined-incoming` fails.
  The model reports `OutOfRange` there and does not follow the failure further.
- A note used as the current index: JavaScript would read the note's string as the contents.
  The model reports `NotAnIndex`.
- `uuid()`: generated identifiers are parameters (`root`, `id`, `newID`). `FreshNote` states
  the uniqueness the source assumes of them.
- `removeFormatting`, the contraction expander and the Porter stemmer are library code. The
  tokenizer is a parameter of `Search.GetFeatures`.
- Search.AddToIndex: the source assigns postings token by token and throws on the first token
  without postings, leaving the earlier tokens updated. The model fails as a whole.
- JavaScript objects as maps: prototype keys, property order and key coercion are not modelled.
  Maps are Dafny `map`s.
- `decodeURIComponent` is a parameter that returns `None` where the real function throws.
- The `typeof str !== "string"` guard of `parseQueryString` cannot fail on a typed string input.
- `upload`, `download`, `readBlob`, `getAccessToken` and the rest of `src/cloud.ts` are network
  and browser I/O.
- `src/index.tsx`, `src/App.tsx`, `src/components/App.tsx`, `src/actions.ts`, `src/keymap.ts`,
  and the viewer, editor and search-bar components are not part of this model. They wire keys
  to `interpretKeypress` and render cards.
- `shift+space`: its branch is commented out in the source, so the key does nothing, as do
  `left`, `right`, `undo` and `redo`.
- Keypress.KeypressKeepsInvariant: escape while viewing is excluded. It returns to an earlier
  breadcrumb whose focus the source never re-checks against an index that may have shrunk
  meanwhile.
- Keypress.KeypressKeepsLinks: backspace and cut are excluded because `deleteSelection` does
  not maintain links (see `LinkGraph.DeleteSelectionBreaksLinks`).
- SlateCodec.DeserializeSerialize: it requires a non-empty document with no line break inside
  any paragraph. The other cases do not round-trip (see `SlateCodec.EmptyDocumentNotRestored`
  and `SlateCodec.BreakInParagraphSplits`).
- Slate's own normalisation and the marks and properties of text leaves are not modelled.
  A node is text or an element with children.

=== FILE: cards.dfy ===
/** The card store: identifiers, cards, the naming convention that ties a
    note to its two link indices, and the array primitives (`splice`,
    `findIndex`) every store mutation is built from. */
module Cards {
  import opened Options
  import opened Strings

  type ID = string

  /** A card is a note holding markdown text, or an index holding an ordered
      list of card identifiers. */
  datatype Card = Note(text: string) | Index(contents: seq<ID>)

  type Database = map<ID, Card>

  const Outgoing: string := "-outgoing"
  const Incoming: string := "-incoming"

  /** Both link suffixes have the same length, the 9 characters the owner
      is recovered by dropping. */
  const SuffixLength: nat := 9

  lemma SuffixLengths()
    ensures |Outgoing| == SuffixLength && |Incoming| == SuffixLength
  {
  }

  /** The contents of the index stored under `id`; nothing if `id` is absent
      or names a note. */
  function IndexAt(db: Database, id: ID): (r: Option<seq<ID>>)
    ensures r.Some? <==> id in db && db[id].Index?
    ensures r.Some? ==> db[id] == Index(r.value)
  {
    if id in db && db[id].Index? then Some(db[id].contents) else None
  }

  /** The note owning a link index: its identifier minus the 9-character
      suffix. */
  function Owner(indexID: ID): ID
    requires |indexID| >= SuffixLength
  {
    indexID[..|indexID| - SuffixLength]
  }

  /** The other half of a link edit: inserting `id` into (or removing it from)
      the link index `indexID` must also touch `target` on behalf of `owner`. */
  datatype LinkUpdate = LinkUpdate(target: ID, owner: ID)

  function BackLink(indexID: ID, id: ID): (r: Option<LinkUpdate>)
    ensures r.None? <==> !EndsWith(indexID, Outgoing) && !EndsWith(indexID, Incoming)
    ensures r.Some? && EndsWith(indexID, Outgoing) ==>
              r.value.target == id + Incoming && indexID == r.value.owner + Outgoing
    ensures r.Some? && EndsWith(indexID, Incoming) ==>
              r.value.target == id + Outgoing && indexID == r.value.owner + Incoming
  {
    if EndsWith(indexID, Outgoing) then Some(LinkUpdate(id + Incoming, Owner(indexID)))
    else if EndsWith(indexID, Incoming) then Some(LinkUpdate(id + Outgoing, Owner(indexID)))
    else None
  }

  /** An outgoing-link index is never an incoming-link index. */
  lemma SuffixesDiffer(a: ID, b: ID)
    ensures a + Outgoing != b + Incoming
  {
    if |a| == |b| {
      assert (a + Outgoing)[|a| + 1] == 'o';
      assert (b + Incoming)[|b| + 1] == 'i';
    } else {
      assert |a + Outgoing| != |b + Incoming|;
    }
  }

  /** The opposite index a link update goes to is never the index it came
      from. */
  lemma BackLinkElsewhere(indexID: ID, id: ID)
    requires BackLink(indexID, id).Some?
    ensures BackLink(indexID, id).value.target != indexID
  {
    var u := BackLink(indexID, id).value;
    if EndsWith(indexID, Outgoing) {
      SuffixesDiffer(u.owner, id);
    } else {
      SuffixesDiffer(id, u.owner);
    }
  }

  /** A link index names its owner uniquely. */
  lemma SuffixInjective(a: ID, b: ID, suffix: string)
    requires a + suffix == b + suffix
    ensures a == b
  {
    assert a == (a + suffix)[..|a|];
    assert b == (b + suffix)[..|b|];
  }

  /** A note identifier never carries both suffixes. */
  lemma NotBothSuffixes(id: ID)
    ensures !(EndsWith(id, Outgoing) && EndsWith(id, Incoming))
  {
  }

  // -------------------------------------------------------------------
  // JavaScript array primitives

  /** Where `splice(start, ...)` starts: a negative start counts back from
      the end, and the result is clamped to `[0, len]`. */
  function SpliceStart(len: nat, start: int): (st: nat)
    ensures st <= len
    ensures 0 <= start <= len ==> st == start
    ensures -(len as int) <= start < 0 ==> st == len + start
    ensures start > len ==> st == len
    ensures start < -(len as int) ==> st == 0
  {
    if start < 0 then (if len + start < 0 then 0 else len + start)
    else if start > len then len
    else start
  }

  /** `s.splice(start, deleteCount, ...items)` as a value: removes up to
      `deleteCount` elements from the normalised start and puts `items` there. */
  function Splice<T>(s: seq<T>, start: int, deleteCount: int, items: seq<T>): (r: seq<T>)
    ensures var st := SpliceStart(|s|, start);
            var removed := |s| + |items| - |r|;
            st + |items| <= |r| && 0 <= removed <= |s| - st &&
            (deleteCount <= 0 ==> removed == 0) &&
            (deleteCount > 0 ==> removed == deleteCount || removed == |s| - st) &&
            removed <= (if deleteCount < 0 then 0 else deleteCount) &&
            r[..st] == s[..st] && r[st..st + |items|] == items && r[st + |items|..] == s[st + removed..]
  {
    var st := SpliceStart(|s|, start);
    var dc := if deleteCount < 0 then 0 else if deleteCount > |s| - st then |s| - st else deleteCount;
    s[..st] + items + s[st + dc..]
  }

  /** Splicing in one element after `p - 1` puts it at position `p`. */
  lemma SpliceInsert<T>(s: seq<T>, p: int, x: T)
    requires 0 <= p <= |s|
    ensures Splice(s, p, 0, [x]) == s[..p] + [x] + s[p..]
  {
  }

  /** Inserting one element at any start puts it at the normalised start, so
      a start past the end appends it. */
  lemma SpliceInsertAt<T>(s: seq<T>, p: int, x: T)
    ensures var q := SpliceStart(|s|, p);
            Splice(s, p, 0, [x]) == s[..q] + [x] + s[q..]
    ensures p >= |s| ==> Splice(s, p, 0, [x]) == s + [x]
  {
    assert s[..|s|] == s;
  }

  /** However the start is normalised, inserting one element adds exactly it. */
  lemma SpliceInsertMultiset<T>(s: seq<T>, p: int, x: T)
    ensures multiset(Splice(s, p, 0, [x])) == multiset(s) + multiset{x}
  {
    var st := SpliceStart(|s|, p);
    assert s == s[..st] + s[st..];
  }

  /** Removing at an in-range position takes exactly that element out. */
  lemma SpliceRemoveMultiset<T>(s: seq<T>, p: int)
    requires 0 <= p < |s|
    ensures Splice(s, p, 1, []) == s[..p] + s[p + 1..]
    ensures multiset(Splice(s, p, 1, [])) == multiset(s) - multiset{s[p]}
  {
    assert s == s[..p] + [s[p]] + s[p + 1..];
  }

  /** Removing `n > 0` elements cuts from the normalised start up to `n`
      elements on, or to the end when fewer remain. */
  lemma SpliceRemove<T>(s: seq<T>, start: int, n: int)
    requires n > 0
    ensures var st := SpliceStart(|s|, start);
            var e := if st + n < |s| then st + n else |s|;
            Splice(s, start, n, []) == s[..st] + s[e..]
  {
    var st := SpliceStart(|s|, start);
    assert s[..st] + [] == s[..st];
  }

  /** `splice(p, 1)` for any `p`: an in-range position loses its element, a
      position past the end changes nothing, and a negative one counts back
      from the end. */
  lemma SpliceOne<T>(s: seq<T>, p: int)
    ensures var r := Splice(s, p, 1, []);
            (|r| == |s| || |r| == |s| - 1) &&
            (0 <= p < |s| ==> r == s[..p] + s[p + 1..]) &&
            (p >= |s| ==> r == s) &&
            (p < 0 && |s| > 0 ==> r == s[..SpliceStart(|s|, p)] + s[SpliceStart(|s|, p) + 1..]) &&
            (|s| == 0 ==> r == s)
  {
    SpliceRemove(s, p, 1);
    if p >= |s| {
      SplicePastEnd(s, p, 1);
    }
  }

  /** A removal starting at or past the end removes nothing. */
  lemma SplicePastEnd<T>(s: seq<T>, start: int, deleteCount: int)
    requires start >= |s|
    ensures Splice(s, start, deleteCount, []) == s
  {
    assert s[..|s|] == s;
  }

  /** Removing `hi - lo + 1` elements at an in-range `lo` cuts out `s[lo..hi + 1]`. */
  lemma SpliceRemoveRange<T>(s: seq<T>, lo: int, hi: int)
    requires 0 <= lo <= hi < |s|
    ensures Splice(s, lo, hi - lo + 1, []) == s[..lo] + s[hi + 1..]
  {
  }

  /** `splice(lo, hi - lo + 1)` for any inclusive range: one inside the
      sequence cuts exactly it, one reaching past the end cuts to the end, one
      starting past the end cuts nothing and a negative `lo` counts back from
      the end. */
  lemma SpliceCut<T>(s: seq<T>, lo: int, hi: int)
    requires lo <= hi
    ensures var r := Splice(s, lo, hi - lo + 1, []);
            var st := SpliceStart(|s|, lo);
            (0 <= lo && hi < |s| ==> r == s[..lo] + s[hi + 1..]) &&
            (0 <= lo < |s| <= hi ==> r == s[..lo]) &&
            (lo >= |s| ==> r == s) &&
            (lo < 0 ==> r == s[..st] + s[if st + (hi - lo + 1) < |s| then st + (hi - lo + 1) else |s|..])
  {
    SpliceRemove(s, lo, hi - lo + 1);
    if 0 <= lo && hi < |s| {
      SpliceRemoveRange(s, lo, hi);
    } else if lo >= |s| {
      SplicePastEnd(s, lo, hi - lo + 1);
    } else if 0 <= lo {
      assert s[..lo] + s[|s|..] == s[..lo];
    }
  }

  /** `splice(-1, 1)` removes the last element. */
  lemma SpliceRemoveLast<T>(s: seq<T>)
    ensures Splice(s, -1, 1, []) == if |s| == 0 then s else s[..|s| - 1]
  {
  }

  /** `s.findIndex(y => y === x)`: the first position holding `x`, or -1. */
  function FindIndex(s: seq<ID>, x: ID): (r: int)
    ensures -1 <= r < |s|
    ensures r == -1 <==> x !in s
    ensures r >= 0 ==> s[r] == x && x !in s[..r]
  {
    if |s| == 0 then -1
    else if s[0] == x then 0
    else
      var r := FindIndex(s[1..], x);
      assert s == [s[0]] + s[1..];
      if r == -1 then -1
      else
        assert s[..r + 1] == [s[0]] + s[1..][..r];
        r + 1
  }
}

=== FILE: keypress.dfy ===
/** `interpretKeypress`: the key-driven transition function over `State`.
    Like the source it runs three guarded blocks one after the other, each
    seeing the state the previous one left: keys for viewing, keys for
    viewing or selecting, keys for editing. */
module Keypress {
  import opened Options
  import opened Cards
  import opened Model
  import opened LinkGraph
  import opened Navigation

  datatype Keypress =
    | EnterKey | Escape | Space | ShiftSpace | Backspace
    | Left | Right | Up | Down
    | CopyKey | PasteKey | CutKey | Undo | Redo
    | ShiftDown | ShiftUp

  /** Keys the source binds to nothing: left, right, undo, redo and
      shift+space. */
  predicate Ignored(key: Keypress) {
    key == Left || key == Right || key == Undo || key == Redo || key == ShiftSpace
  }

  /** Enters selecting mode, anchoring the selection at the focus unless an
      anchor is already set. */
  function StartSelecting(s: State): (r: State)
    ensures r == s.(mode := Selecting, selection := r.selection)
    ensures r.selection == if s.selection.None? then Some(s.Focus()) else s.selection
  {
    s.(mode := Selecting, selection := if s.selection.None? then Some(s.Focus()) else s.selection)
  }

  /** The first block: keys that only act while viewing. `newID` stands for
      the identifier `newNote` generates. */
  function ViewingKeys(key: Keypress, s: State, newID: ID): (r: Result<State>)
    requires FreshNote(s.db, newID)
    ensures r.Ok? ==> r.value.root == s.root && s.db.Keys <= r.value.db.Keys
    ensures Ignored(key) ==> r == Ok(s)
  {
    if s.mode != Viewing then Ok(s)
    else if key == EnterKey && s.Focus() >= 0 then Ok(s.(mode := Editing))
    else if key == Escape then Ok(Exit(s))
    else if key == Space then AddNote(s, newID)
    else if key == PasteKey then Paste(s)
    else Ok(s)
  }

  /** Space while viewing: a new note goes in after the focus, takes the
      focus and opens for editing. */
  function AddNote(s: State, newID: ID): (r: Result<State>)
    requires FreshNote(s.db, newID)
    ensures r.Ok? ==> r.value.root == s.root && s.db.Keys <= r.value.db.Keys
  {
    var s1 := NewNote(s, newID);
    match InsertAfter(s1, s1.Focus(), newID)
    case Err(e) => Err(e)
    case Ok(s2) => Ok(s2.WithFocus(s2.Focus() + 1).(mode := Editing))
  }

  /** The second block: keys that act while viewing or selecting. */
  function BrowsingKeys(key: Keypress, s: State): (r: Result<State>)
    ensures r.Ok? ==> r.value.root == s.root && r.value.db.Keys == s.db.Keys
    ensures Ignored(key) ==> r == Ok(s)
  {
    if s.mode != Viewing && s.mode != Selecting then Ok(s)
    else if key == Backspace && s.Focus() >= 0 then DeleteSelection(s)
    else if key == CopyKey && s.Focus() >= 0 then
      (match Copy(s)
       case Err(e) => Err(e)
       case Ok(s1) => Ok(s1.(mode := Viewing, selection := None)))
    else if key == CutKey && s.Focus() >= 0 then
      (match Copy(s)
       case Err(e) => Err(e)
       case Ok(s1) => DeleteSelection(s1))
    else if key == Escape then Ok(s.(mode := Viewing, selection := None))
    else if key == Up then Ok(GoUp(s))
    else if key == Down then GoDown(s)
    else if key == ShiftDown && s.Focus() >= 0 then GoDown(StartSelecting(s))
    else if key == ShiftUp then Ok(GoUp(StartSelecting(s)))
    else Ok(s)
  }

  /** The third block: only escape acts while editing. */
  function EditingKeys(key: Keypress, s: State): (r: State)
    ensures r.root == s.root && r.db == s.db
    ensures key != Escape ==> r == s
  {
    if s.mode == Editing && key == Escape then s.(mode := Viewing) else s
  }

  function InterpretKeypress(key: Keypress, s: State, newID: ID): (r: Result<State>)
    requires FreshNote(s.db, newID)
    ensures Ignored(key) ==> r == Ok(s)
    ensures r.Ok? ==> r.value.root == s.root && s.db.Keys <= r.value.db.Keys
  {
    match ViewingKeys(key, s, newID)
    case Err(e) => Err(e)
    case Ok(s1) =>
      match BrowsingKeys(key, s1)
      case Err(e) => Err(e)
      case Ok(s2) => Ok(EditingKeys(key, s2))
  }

  // -------------------------------------------------------------------
  // Transitions

  /** While editing, escape returns to viewing and every other key does
      nothing. */
  lemma EditingOnlyEscapes(key: Keypress, s: State, newID: ID)
    requires FreshNote(s.db, newID) && s.mode == Editing
    ensures InterpretKeypress(key, s, newID) == Ok(if key == Escape then s.(mode := Viewing) else s)
  {
  }

  /** Enter starts editing exactly when viewing with a focused card. */
  lemma EnterEditsOnlyFocused(s: State, newID: ID)
    requires FreshNote(s.db, newID)
    ensures InterpretKeypress(EnterKey, s, newID) ==
              Ok(if s.mode == Viewing && s.Focus() >= 0 then s.(mode := Editing) else s)
  {
  }

  /** Extending the selection sets the anchor only when none is set. */
  lemma ShiftSetsAnchorOnce(key: Keypress, s: State, newID: ID)
    requires FreshNote(s.db, newID) && s.mode != Editing
    requires key == ShiftUp || (key == ShiftDown && s.Focus() >= 0)
    requires InterpretKeypress(key, s, newID).Ok?
    ensures InterpretKeypress(key, s, newID).value.mode == Selecting
    ensures InterpretKeypress(key, s, newID).value.selection ==
              if s.selection.None? then Some(s.Focus()) else s.selection
  {
  }

  /** Copy and escape while viewing or selecting end in viewing with no
      anchor; copy fills the clipboard as `copy()` does. */
  lemma CopyAndEscapeEndViewing(key: Keypress, s: State, newID: ID)
    requires FreshNote(s.db, newID) && s.mode != Editing
    requires key == Escape || (key == CopyKey && s.Focus() >= 0)
    requires InterpretKeypress(key, s, newID).Ok?
    ensures InterpretKeypress(key, s, newID).value.mode == Viewing
    ensures InterpretKeypress(key, s, newID).value.selection == None
    ensures key == CopyKey ==>
              InterpretKeypress(key, s, newID).value.clipboard == Copy(s).value.clipboard
  {
  }

  /** Escape while viewing leaves the current index (never the root frame). */
  lemma EscapeWhileViewingExits(s: State, newID: ID)
    requires FreshNote(s.db, newID) && s.mode == Viewing
    ensures InterpretKeypress(Escape, s, newID) == Ok(Exit(s).(selection := None))
    ensures |InterpretKeypress(Escape, s, newID).value.Crumbs()| == if |s.Crumbs()| > 1 then |s.Crumbs()| - 1 else 1
  {
  }

  /** Space while viewing creates a note right after the focus, focuses it
      and starts editing it. */
  lemma SpaceCreatesNote(s: State, newID: ID)
    requires FreshNote(s.db, newID) && s.mode == Viewing && FocusInBounds(s)
    ensures InterpretKeypress(Space, s, newID).Ok?
    ensures var r := InterpretKeypress(Space, s, newID).value;
            var c := IndexAt(s.db, s.CurrentIndexID()).value;
            r.mode == Editing && r.Focus() == s.Focus() + 1 &&
            IndexAt(r.db, s.CurrentIndexID()) == Some(c[..s.Focus() + 1] + [newID] + c[s.Focus() + 1..]) &&
            r.db[newID] == Note("")
  {
    var s1 := NewNote(s, newID);
    assert IndexAt(s1.db, s.CurrentIndexID()) == IndexAt(s.db, s.CurrentIndexID());
    var s2 := InsertAfter(s1, s1.Focus(), newID).value;
    if BackLink(s.CurrentIndexID(), newID).Some? {
      var u := BackLink(s.CurrentIndexID(), newID).value;
      SuffixesDiffer(newID, u.owner);
      SuffixesDiffer(u.owner, newID);
      assert newID != u.target;
    }
    assert s2.db[newID] == Note("");
  }

  /** Extending the selection upwards with nothing focused anchors it at
      -1, a position outside the index. */
  lemma ShiftUpWithoutFocus(s: State, newID: ID)
    requires FreshNote(s.db, newID) && s.mode == Viewing && s.selection.None? && s.Focus() == -1
    ensures InterpretKeypress(ShiftUp, s, newID) == Ok(s.(mode := Selecting, selection := Some(-1)))
  {
  }

  /** With the anchor at -1, removing the selection removes the LAST card of
      the index rather than the selected range, and leaves nothing focused. */
  lemma AnchorMinusOneRemovesLast(s: State)
    requires s.mode == Selecting && s.selection == Some(-1)
    requires FocusInBounds(s) && s.Focus() >= 0
    ensures var c := IndexAt(s.db, s.CurrentIndexID()).value;
            DeleteSelection(s).Ok? &&
            IndexAt(DeleteSelection(s).value.db, s.CurrentIndexID()) == Some(c[..|c| - 1]) &&
            DeleteSelection(s).value.Focus() == -1
  {
    var c := IndexAt(s.db, s.CurrentIndexID()).value;
    var c1 := Splice(c, -1, s.Focus() + 2, []);
    assert c1 == c[..|c| - 1] + [] + c[|c|..];
    assert c1 == c[..|c| - 1];
    assert Lower(s.Focus(), -1) == -1 && Upper(s.Focus(), -1) == s.Focus();
    var s1 := s.(db := s.db[s.CurrentIndexID() := Index(c1)], mode := Viewing, selection := None).WithFocus(-1);
    assert DeleteSelection(s) == Ok(ClampFocus(s1, |c1|));
  }

  /** The key sequence behind the anchor at -1: after shift+up with nothing
      focused, backspace does nothing (it needs a focused card); after a
      further down focuses the first card, backspace removes the last card
      of the index instead of the highlighted range. */
  lemma ShiftUpDownBackspace(s: State, newID: ID)
    requires FreshNote(s.db, newID) && s.mode == Viewing && s.selection.None? && s.Focus() == -1
    requires IndexAt(s.db, s.CurrentIndexID()).Some? && |IndexAt(s.db, s.CurrentIndexID()).value| >= 1
    ensures var c := IndexAt(s.db, s.CurrentIndexID()).value;
            var s1 := s.(mode := Selecting, selection := Some(-1));
            var s2 := s1.WithFocus(0);
            InterpretKeypress(ShiftUp, s, newID) == Ok(s1) &&
            InterpretKeypress(Backspace, s1, newID) == Ok(s1) &&
            InterpretKeypress(Down, s1, newID) == Ok(s2) &&
            InterpretKeypress(Backspace, s2, newID).Ok? &&
            IndexAt(InterpretKeypress(Backspace, s2, newID).value.db, s.CurrentIndexID()) == Some(c[..|c| - 1]) &&
            InterpretKeypress(Backspace, s2, newID).value.Focus() == -1 &&
            InterpretKeypress(Backspace, s2, newID).value.mode == Viewing
  {
    var s1 := s.(mode := Selecting, selection := Some(-1));
    var s2 := s1.WithFocus(0);
    ShiftUpWithoutFocus(s, newID);
    BackspaceNeedsFocus(s1, newID);
    DownFromNothing(s1, newID);
    BackspaceDeletesSelection(s2, newID);
    AnchorMinusOneRemovesLast(s2);
  }

  /** With nothing focused in a non-empty index, down focuses the first
      card and changes nothing else, in viewing and selecting mode alike. */
  lemma DownFromNothing(s: State, newID: ID)
    requires FreshNote(s.db, newID) && s.mode != Editing && s.Focus() == -1
    requires IndexAt(s.db, s.CurrentIndexID()).Some? && |IndexAt(s.db, s.CurrentIndexID()).value| >= 1
    ensures InterpretKeypress(Down, s, newID) == Ok(s.WithFocus(0))
  {
    assert ViewingKeys(Down, s, newID) == Ok(s);
    assert BrowsingKeys(Down, s) == Ok(s.WithFocus(0));
  }

  /** Backspace does nothing unless a card is focused. */
  lemma BackspaceNeedsFocus(s: State, newID: ID)
    requires FreshNote(s.db, newID) && s.Focus() < 0
    ensures InterpretKeypress(Backspace, s, newID) == Ok(s)
  {
    assert ViewingKeys(Backspace, s, newID) == Ok(s);
    assert BrowsingKeys(Backspace, s) == Ok(s);
  }

  /** While selecting with a card focused, backspace is `deleteSelection()`. */
  lemma BackspaceDeletesSelection(s: State, newID: ID)
    requires FreshNote(s.db, newID) && s.mode == Selecting && s.Focus() >= 0
    ensures InterpretKeypress(Backspace, s, newID) == DeleteSelection(s)
  {
    assert ViewingKeys(Backspace, s, newID) == Ok(s);
    assert BrowsingKeys(Backspace, s) == DeleteSelection(s);
    if DeleteSelection(s).Ok? {
      assert DeleteSelection(s).value.mode == Viewing;
    }
  }

  // -------------------------------------------------------------------
  // Invariants

  /** What every key but a viewing escape keeps: focus in bounds, an anchor
      in the same bounds exactly while selecting. */
  predicate KeyInvariant(s: State) {
    && FocusInBounds(s)
    && (s.mode == Selecting <==> s.selection.Some?)
    && (s.selection.Some? ==> -1 <= s.selection.value <= CurrentLength(s) - 1)
  }

  lemma ViewingKeysKeep(key: Keypress, s: State, newID: ID)
    requires FreshNote(s.db, newID) && KeyInvariant(s)
    requires !(key == Escape && s.mode == Viewing)
    requires ViewingKeys(key, s, newID).Ok?
    ensures KeyInvariant(ViewingKeys(key, s, newID).value)
  {
    if s.mode == Viewing && key == Space {
      var s1 := NewNote(s, newID);
      NewNoteInBounds(s, newID);
      InsertAfterInBounds(s1, s1.Focus(), newID);
    } else if s.mode == Viewing && key == PasteKey {
      PasteInBounds(s);
      PasteItemsInBounds(s, s.Focus(), s.clipboard);
    }
  }

  lemma BrowsingKeysKeep(key: Keypress, s: State)
    requires KeyInvariant(s)
    requires BrowsingKeys(key, s).Ok?
    ensures KeyInvariant(BrowsingKeys(key, s).value)
  {
    if s.mode == Viewing || s.mode == Selecting {
      if key == Backspace && s.Focus() >= 0 {
        DeleteSelectionInBounds(s);
      } else if key == CopyKey && s.Focus() >= 0 {
      } else if key == CutKey && s.Focus() >= 0 {
        DeleteSelectionInBounds(Copy(s).value);
      } else if key == Up {
        GoUpInBounds(s);
      } else if key == Down {
        GoDownInBounds(s);
      } else if key == ShiftDown && s.Focus() >= 0 {
        GoDownInBounds(StartSelecting(s));
      } else if key == ShiftUp {
        GoUpInBounds(StartSelecting(s));
      }
    }
  }

  /** Every key except escape while viewing (which returns to an earlier
      frame whose index may have changed meanwhile) keeps the focus and the
      anchor in bounds. */
  lemma KeypressKeepsInvariant(key: Keypress, s: State, newID: ID)
    requires FreshNote(s.db, newID) && KeyInvariant(s)
    requires !(key == Escape && s.mode == Viewing)
    requires InterpretKeypress(key, s, newID).Ok?
    ensures KeyInvariant(InterpretKeypress(key, s, newID).value)
  {
    ViewingKeysKeep(key, s, newID);
    var s1 := ViewingKeys(key, s, newID).value;
    BrowsingKeysKeep(key, s1);
  }

  lemma ViewingKeysKeepLinks(key: Keypress, s: State, newID: ID)
    requires FreshNote(s.db, newID) && LinksSymmetric(s.db)
    requires ViewingKeys(key, s, newID).Ok?
    ensures LinksSymmetric(ViewingKeys(key, s, newID).value.db)
  {
    if s.mode == Viewing && key == Space {
      var s1 := NewNote(s, newID);
      NewNoteKeepsLinks(s, newID);
      InsertAfterKeepsLinks(s1, s1.Focus(), newID);
    } else if s.mode == Viewing && key == PasteKey {
      PasteKeepsLinks(s);
    }
  }

  lemma BrowsingKeysKeepDatabase(key: Keypress, s: State)
    requires key != Backspace && key != CutKey
    requires BrowsingKeys(key, s).Ok?
    ensures BrowsingKeys(key, s).value.db == s.db
  {
  }

  /** Every key except backspace and cut (which go through
      `deleteSelection`) keeps the link convention. */
  lemma KeypressKeepsLinks(key: Keypress, s: State, newID: ID)
    requires FreshNote(s.db, newID) && LinksSymmetric(s.db)
    requires key != Backspace && key != CutKey
    requires InterpretKeypress(key, s, newID).Ok?
    ensures LinksSymmetric(InterpretKeypress(key, s, newID).value.db)
  {
    ViewingKeysKeepLinks(key, s, newID);
    BrowsingKeysKeepDatabase(key, ViewingKeys(key, s, newID).value);
  }
}

=== FILE: link_graph.dfy ===
/** The bidirectional link convention: `b` occurs in `a-outgoing` exactly as
    often as `a` occurs in `b-incoming`. Every store operation except
    `deleteSelection` keeps it. */
module LinkGraph {
  import opened Options
  import opened Strings
  import opened Cards
  import opened Model

  /** The cards listed in `id`, or none if `id` is no index. */
  function Links(db: Database, id: ID): seq<ID> {
    match IndexAt(db, id)
    case None => []
    case Some(c) => c
  }

  /** How often `b` is listed among `a`'s outgoing links. */
  function OutCount(db: Database, a: ID, b: ID): nat {
    multiset(Links(db, a + Outgoing))[b]
  }

  /** How often `a` is listed among `b`'s incoming links. */
  function InCount(db: Database, b: ID, a: ID): nat {
    multiset(Links(db, b + Incoming))[a]
  }

  ghost predicate LinksSymmetric(db: Database) {
    forall a, b :: OutCount(db, a, b) == InCount(db, b, a)
  }

  lemma LinksUpdate(db: Database, k: ID, c: seq<ID>, j: ID)
    ensures Links(db[k := Index(c)], j) == if j == k then c else Links(db, j)
  {
  }

  lemma LinksSameOutside(db: Database, db': Database, touched: set<ID>, j: ID)
    requires SameOutside(db, db', touched) && j !in touched
    ensures Links(db', j) == Links(db, j)
  {
  }

  /** An index without a link suffix is no `a-outgoing` or `b-incoming`. */
  lemma PlainIndex(k: ID, a: ID, b: ID)
    requires BackLink(k, a).None?
    ensures k != a + Outgoing && k != b + Incoming
  {
    EndsWithAppend(a, Outgoing);
    EndsWithAppend(b, Incoming);
  }

  lemma OwnerUnique(o: ID, a: ID, suffix: string)
    ensures a + suffix == o + suffix <==> a == o
  {
    if a + suffix == o + suffix {
      SuffixInjective(a, o, suffix);
    }
  }

  /** Adding one edge `a0 -> b0` on both sides keeps the convention. */
  lemma EdgeAdded(db: Database, db': Database, a0: ID, b0: ID)
    requires LinksSymmetric(db)
    requires SameOutside(db, db', {a0 + Outgoing, b0 + Incoming})
    requires multiset(Links(db', a0 + Outgoing)) == multiset(Links(db, a0 + Outgoing)) + multiset{b0}
    requires multiset(Links(db', b0 + Incoming)) == multiset(Links(db, b0 + Incoming)) + multiset{a0}
    ensures LinksSymmetric(db')
  {
    forall a, b ensures OutCount(db', a, b) == InCount(db', b, a) {
      EdgeKeys(db, db', a0, b0, a, b);
      assert OutCount(db, a, b) == InCount(db, b, a);
    }
  }

  /** Removing one existing edge `a0 -> b0` on both sides keeps the
      convention. */
  lemma EdgeRemoved(db: Database, db': Database, a0: ID, b0: ID)
    requires LinksSymmetric(db)
    requires OutCount(db, a0, b0) > 0
    requires SameOutside(db, db', {a0 + Outgoing, b0 + Incoming})
    requires multiset(Links(db', a0 + Outgoing)) == multiset(Links(db, a0 + Outgoing)) - multiset{b0}
    requires multiset(Links(db', b0 + Incoming)) == multiset(Links(db, b0 + Incoming)) - multiset{a0}
    ensures LinksSymmetric(db')
  {
    assert InCount(db, b0, a0) > 0;
    forall a, b ensures OutCount(db', a, b) == InCount(db', b, a) {
      EdgeKeys(db, db', a0, b0, a, b);
      assert OutCount(db, a, b) == InCount(db, b, a);
    }
  }

  /** Outside the two touched link indices nothing changes. */
  lemma EdgeKeys(db: Database, db': Database, a0: ID, b0: ID, a: ID, b: ID)
    requires SameOutside(db, db', {a0 + Outgoing, b0 + Incoming})
    ensures a != a0 ==> Links(db', a + Outgoing) == Links(db, a + Outgoing)
    ensures b != b0 ==> Links(db', b + Incoming) == Links(db, b + Incoming)
  {
    SuffixesDiffer(a, b0);
    SuffixesDiffer(a0, b);
    OwnerUnique(a0, a, Outgoing);
    OwnerUnique(b0, b, Incoming);
    if a != a0 {
      LinksSameOutside(db, db', {a0 + Outgoing, b0 + Incoming}, a + Outgoing);
    }
    if b != b0 {
      LinksSameOutside(db, db', {a0 + Outgoing, b0 + Incoming}, b + Incoming);
    }
  }

  // -------------------------------------------------------------------
  // Establishing and keeping the convention

  lemma InitLinksSymmetric(root: ID)
    ensures LinksSymmetric(Init(root).db)
  {
    var db := Init(root).db;
    forall a, b ensures OutCount(db, a, b) == InCount(db, b, a) {
      assert Links(db, a + Outgoing) == [];
      assert Links(db, b + Incoming) == [];
    }
  }

  lemma NewNoteKeepsLinks(s: State, id: ID)
    requires FreshNote(s.db, id) && LinksSymmetric(s.db)
    ensures LinksSymmetric(NewNote(s, id).db)
  {
    var db' := NewNote(s, id).db;
    forall j: ID ensures Links(db', j) == Links(s.db, j) {
      if j in s.db {
        assert db'[j] == s.db[j];
      }
    }
    forall a, b ensures OutCount(db', a, b) == InCount(db', b, a) {
      assert Links(db', a + Outgoing) == Links(s.db, a + Outgoing);
      assert Links(db', b + Incoming) == Links(s.db, b + Incoming);
      assert OutCount(s.db, a, b) == InCount(s.db, b, a);
    }
  }

  lemma NewIndexKeepsLinks(s: State, id: ID)
    requires id !in s.db && LinksSymmetric(s.db)
    ensures LinksSymmetric(NewIndex(s, id).db)
  {
    var db' := NewIndex(s, id).db;
    forall j: ID ensures Links(db', j) == Links(s.db, j) {
      if j in s.db {
        assert db'[j] == s.db[j];
      }
    }
    forall a, b ensures OutCount(db', a, b) == InCount(db', b, a) {
      assert Links(db', a + Outgoing) == Links(s.db, a + Outgoing);
      assert Links(db', b + Incoming) == Links(s.db, b + Incoming);
      assert OutCount(s.db, a, b) == InCount(s.db, b, a);
    }
  }

  /** Inserting into a link index records the reverse edge, so the
      convention survives. */
  lemma {:induction false} InsertAfterKeepsLinks(s: State, focus: int, id: ID)
    requires LinksSymmetric(s.db)
    requires InsertAfter(s, focus, id).Ok?
    ensures LinksSymmetric(InsertAfter(s, focus, id).value.db)
  {
    var db := s.db;
    var db' := InsertAfter(s, focus, id).value.db;
    var cur := s.CurrentIndexID();
    var c := IndexAt(db, cur).value;
    var c' := Splice(c, focus + 1, 0, [id]);
    SpliceInsertMultiset(c, focus + 1, id);
    match BackLink(cur, id)
    case None =>
      assert db' == db[cur := Index(c')];
      forall a, b ensures OutCount(db', a, b) == InCount(db', b, a) {
        PlainIndex(cur, a, b);
        LinksUpdate(db, cur, c', a + Outgoing);
        LinksUpdate(db, cur, c', b + Incoming);
        assert OutCount(db, a, b) == InCount(db, b, a);
      }
    case Some(u) =>
      var back := IndexAt(db, u.target).value;
      SuffixesDiffer(u.owner, id);
      SuffixesDiffer(id, u.owner);
      assert Touched(cur, id) == {cur, u.target};
      assert IndexAt(db', u.target) == Some(back + [u.owner]);
      assert IndexAt(db', cur) == Some(c');
      if EndsWith(cur, Outgoing) {
        assert {cur, u.target} == {u.owner + Outgoing, id + Incoming};
        EdgeAdded(db, db', u.owner, id);
      } else {
        assert {cur, u.target} == {id + Outgoing, u.owner + Incoming};
        EdgeAdded(db, db', id, u.owner);
      }
  }

  /** Removing a card from a link index also removes the reverse edge: the
      owner is found in the removed card's opposite link index because the
      convention held, so the `findIndex` miss never happens. */
  lemma {:induction false} DeleteKeepsLinks(s: State, focus: int)
    requires LinksSymmetric(s.db)
    requires Delete(s, focus).Ok?
    ensures LinksSymmetric(Delete(s, focus).value.db)
  {
    var c := IndexAt(s.db, s.CurrentIndexID()).value;
    if 0 <= focus < |c| {
      DeleteAtKeepsLinks(s, c, focus);
    } else {
      DeleteOutsideKeepsLinks(s, c, focus);
    }
  }

  /** Out of range, only a plain index can be spliced, and that is no link
      index. */
  lemma DeleteOutsideKeepsLinks(s: State, c: seq<ID>, focus: int)
    requires LinksSymmetric(s.db)
    requires IndexAt(s.db, s.CurrentIndexID()) == Some(c) && !(0 <= focus < |c|)
    requires Delete(s, focus).Ok?
    ensures LinksSymmetric(Delete(s, focus).value.db)
  {
    var db := s.db;
    var db' := Delete(s, focus).value.db;
    var cur := s.CurrentIndexID();
    assert BackLink(cur, "").None?;
    assert db' == db[cur := Index(Splice(c, focus, 1, []))];
    forall a, b ensures OutCount(db', a, b) == InCount(db', b, a) {
      PlainIndex(cur, a, b);
      LinksUpdate(db, cur, Splice(c, focus, 1, []), a + Outgoing);
      LinksUpdate(db, cur, Splice(c, focus, 1, []), b + Incoming);
      assert OutCount(db, a, b) == InCount(db, b, a);
    }
  }

  lemma DeleteAtKeepsLinks(s: State, c: seq<ID>, focus: int)
    requires LinksSymmetric(s.db)
    requires IndexAt(s.db, s.CurrentIndexID()) == Some(c) && 0 <= focus < |c|
    requires DeleteAt(s, c, focus).Ok?
    ensures LinksSymmetric(DeleteAt(s, c, focus).value.db)
  {
    var cur := s.CurrentIndexID();
    if BackLink(cur, c[focus]).None? {
      DeletePlainKeepsLinks(s, c, focus);
    } else if EndsWith(cur, Outgoing) {
      DeleteOutgoingKeepsLinks(s, c, focus);
    } else {
      DeleteIncomingKeepsLinks(s, c, focus);
    }
  }

  lemma DeletePlainKeepsLinks(s: State, c: seq<ID>, focus: int)
    requires LinksSymmetric(s.db)
    requires IndexAt(s.db, s.CurrentIndexID()) == Some(c) && 0 <= focus < |c|
    requires BackLink(s.CurrentIndexID(), c[focus]).None?
    requires DeleteAt(s, c, focus).Ok?
    ensures LinksSymmetric(DeleteAt(s, c, focus).value.db)
  {
    var db := s.db;
    var db' := DeleteAt(s, c, focus).value.db;
    var cur := s.CurrentIndexID();
    forall a, b ensures OutCount(db', a, b) == InCount(db', b, a) {
      PlainIndex(cur, a, b);
      LinksSameOutside(db, db', {cur}, a + Outgoing);
      LinksSameOutside(db, db', {cur}, b + Incoming);
      assert OutCount(db, a, b) == InCount(db, b, a);
    }
  }

  /** Removing `x` from `o-outgoing` removes `o` from `x-incoming`, where the
      convention guarantees it is. */
  lemma DeleteOutgoingKeepsLinks(s: State, c: seq<ID>, focus: int)
    requires LinksSymmetric(s.db)
    requires IndexAt(s.db, s.CurrentIndexID()) == Some(c) && 0 <= focus < |c|
    requires EndsWith(s.CurrentIndexID(), Outgoing)
    requires DeleteAt(s, c, focus).Ok?
    ensures LinksSymmetric(DeleteAt(s, c, focus).value.db)
  {
    var x := c[focus];
    var o := Owner(s.CurrentIndexID());
    assert IndexAt(s.db, c[focus] + Incoming).Some?;
    OutgoingEdge(s, c, focus);
    OutgoingOwnerListed(s, c, focus);
    EdgeRemoved(s.db, DeleteAt(s, c, focus).value.db, o, x);
  }

  /** In `o-outgoing`, deleting `x` edits exactly `o-outgoing` and
      `x-incoming`, taking one `x` and one `o` out of them. */
  lemma OutgoingEdge(s: State, c: seq<ID>, focus: int)
    requires IndexAt(s.db, s.CurrentIndexID()) == Some(c) && 0 <= focus < |c|
    requires EndsWith(s.CurrentIndexID(), Outgoing)
    requires IndexAt(s.db, c[focus] + Incoming).Some?
    ensures var cur := s.CurrentIndexID();
            var x := c[focus];
            var o := Owner(cur);
            var db' := DeleteAt(s, c, focus).value.db;
            cur == o + Outgoing &&
            SameOutside(s.db, db', {o + Outgoing, x + Incoming}) &&
            multiset(Links(db', o + Outgoing)) == multiset(Links(s.db, o + Outgoing)) - multiset{x} &&
            (o in Links(s.db, x + Incoming) ==>
               multiset(Links(db', x + Incoming)) == multiset(Links(s.db, x + Incoming)) - multiset{o})
  {
    var cur := s.CurrentIndexID();
    var x := c[focus];
    var u := BackLink(cur, x).value;
    SuffixesDiffer(u.owner, x);
    assert {cur, u.target} == {u.owner + Outgoing, x + Incoming};
    SpliceRemoveMultiset(c, focus);
  }

  /** The convention puts the owner of `o-outgoing` into the incoming links of
      every card listed there. */
  lemma OutgoingOwnerListed(s: State, c: seq<ID>, focus: int)
    requires LinksSymmetric(s.db)
    requires IndexAt(s.db, s.CurrentIndexID()) == Some(c) && 0 <= focus < |c|
    requires EndsWith(s.CurrentIndexID(), Outgoing)
    ensures Owner(s.CurrentIndexID()) in Links(s.db, c[focus] + Incoming)
  {
    var cur := s.CurrentIndexID();
    var o := Owner(cur);
    var x := c[focus];
    assert cur == o + Outgoing;
    assert Links(s.db, o + Outgoing) == c;
    assert OutCount(s.db, o, x) > 0;
    assert InCount(s.db, x, o) > 0;
  }

  /** Removing `x` from `o-incoming` removes `o` from `x-outgoing`. */
  lemma DeleteIncomingKeepsLinks(s: State, c: seq<ID>, focus: int)
    requires LinksSymmetric(s.db)
    requires IndexAt(s.db, s.CurrentIndexID()) == Some(c) && 0 <= focus < |c|
    requires EndsWith(s.CurrentIndexID(), Incoming)
    requires DeleteAt(s, c, focus).Ok?
    ensures LinksSymmetric(DeleteAt(s, c, focus).value.db)
  {
    var x := c[focus];
    var o := Owner(s.CurrentIndexID());
    assert IndexAt(s.db, c[focus] + Outgoing).Some?;
    IncomingEdge(s, c, focus);
    IncomingOwnerListed(s, c, focus);
    EdgeRemoved(s.db, DeleteAt(s, c, focus).value.db, x, o);
  }

  /** In `o-incoming`, deleting `x` edits exactly `o-incoming` and
      `x-outgoing`, taking one `x` and one `o` out of them. */
  lemma IncomingEdge(s: State, c: seq<ID>, focus: int)
    requires IndexAt(s.db, s.CurrentIndexID()) == Some(c) && 0 <= focus < |c|
    requires EndsWith(s.CurrentIndexID(), Incoming)
    requires IndexAt(s.db, c[focus] + Outgoing).Some?
    ensures var cur := s.CurrentIndexID();
            var x := c[focus];
            var o := Owner(cur);
            var db' := DeleteAt(s, c, focus).value.db;
            cur == o + Incoming &&
            SameOutside(s.db, db', {x + Outgoing, o + Incoming}) &&
            multiset(Links(db', o + Incoming)) == multiset(Links(s.db, o + Incoming)) - multiset{x} &&
            (o in Links(s.db, x + Outgoing) ==>
               multiset(Links(db', x + Outgoing)) == multiset(Links(s.db, x + Outgoing)) - multiset{o})
  {
    var cur := s.CurrentIndexID();
    var x := c[focus];
    NotBothSuffixes(cur);
    var u := BackLink(cur, x).value;
    SuffixesDiffer(x, u.owner);
    assert {cur, u.target} == {x + Outgoing, u.owner + Incoming};
    SpliceRemoveMultiset(c, focus);
  }

  /** The convention puts the owner of `o-incoming` into the outgoing links of
      every card listed there. */
  lemma IncomingOwnerListed(s: State, c: seq<ID>, focus: int)
    requires LinksSymmetric(s.db)
    requires IndexAt(s.db, s.CurrentIndexID()) == Some(c) && 0 <= focus < |c|
    requires EndsWith(s.CurrentIndexID(), Incoming)
    ensures Owner(s.CurrentIndexID()) in Links(s.db, c[focus] + Outgoing)
  {
    var cur := s.CurrentIndexID();
    var o := Owner(cur);
    var x := c[focus];
    assert cur == o + Incoming;
    assert Links(s.db, o + Incoming) == c;
    assert InCount(s.db, o, x) > 0;
    assert OutCount(s.db, x, o) > 0;
  }



  lemma {:induction false} PasteItemsKeepsLinks(s: State, at: int, items: seq<ID>)
    requires LinksSymmetric(s.db)
    requires PasteItems(s, at, items).Ok?
    ensures LinksSymmetric(PasteItems(s, at, items).value.db)
    decreases |items|
  {
    if |items| > 0 {
      var s1 := InsertAfter(s, at, items[0]).value;
      InsertAfterKeepsLinks(s, at, items[0]);
      PasteItemsKeepsLinks(s1, at + 1, items[1..]);
    }
  }

  /** Pasting goes through `insertAfter` card by card, so links stay
      symmetric even when pasting into a link index. */
  lemma PasteKeepsLinks(s: State)
    requires LinksSymmetric(s.db)
    requires Paste(s).Ok?
    ensures LinksSymmetric(Paste(s).value.db)
  {
    PasteItemsKeepsLinks(s, s.Focus(), s.clipboard);
  }

  /** Under the convention every card listed in a link index has the
      opposite link index its back-link goes to. */
  lemma ListedHasBackIndex(db: Database, indexID: ID, x: ID)
    requires LinksSymmetric(db)
    requires IndexAt(db, indexID).Some? && x in IndexAt(db, indexID).value
    requires BackLink(indexID, x).Some?
    ensures IndexAt(db, BackLink(indexID, x).value.target).Some?
  {
    var u := BackLink(indexID, x).value;
    if EndsWith(indexID, Outgoing) {
      assert Links(db, u.owner + Outgoing) == IndexAt(db, indexID).value;
      assert OutCount(db, u.owner, x) > 0;
      assert InCount(db, x, u.owner) > 0;
    } else {
      assert Links(db, u.owner + Incoming) == IndexAt(db, indexID).value;
      assert InCount(db, u.owner, x) > 0;
      assert OutCount(db, x, u.owner) > 0;
    }
  }

  /** Pasting cards taken from the current index back into it never fails
      while the convention holds: their opposite link indices all exist. */
  lemma {:induction false} PasteOwnCards(s: State)
    requires LinksSymmetric(s.db)
    requires IndexAt(s.db, s.CurrentIndexID()).Some?
    requires forall i :: 0 <= i < |s.clipboard| ==> s.clipboard[i] in IndexAt(s.db, s.CurrentIndexID()).value
    ensures Paste(s).Ok?
  {
    var cur := s.CurrentIndexID();
    forall i | 0 <= i < |s.clipboard| && BackLink(cur, s.clipboard[i]).Some?
      ensures IndexAt(s.db, BackLink(cur, s.clipboard[i]).value.target).Some?
    {
      ListedHasBackIndex(s.db, cur, s.clipboard[i]);
    }
  }

  /** Copying, in either mode, and pasting straight away succeeds in any
      store that keeps the convention. */
  lemma CopyThenPasteSucceeds(s: State)
    requires LinksSymmetric(s.db)
    requires s.mode != Editing && Copy(s).Ok?
    ensures Paste(Copy(s).value).Ok?
  {
    var s1 := Copy(s).value;
    if |s1.clipboard| > 0 {
      var c := IndexAt(s.db, s.CurrentIndexID()).value;
      if s.mode == Selecting {
        var lo := Lower(s.Focus(), s.selection.value);
        var hi := Upper(s.Focus(), s.selection.value);
        assert forall i :: 0 <= i < |s1.clipboard| ==> s1.clipboard[i] == c[lo + i];
      }
      PasteOwnCards(s1);
    }
  }

  /** One card `x` listed in `o`'s outgoing index, with the matching
      backlink. */
  lemma OneEdgeSymmetric(o: ID, x: ID)
    ensures LinksSymmetric(map[o + Outgoing := Index([x]), x + Incoming := Index([o])])
  {
    var db0 := map[o + Outgoing := Index([]), x + Incoming := Index([])];
    var db := map[o + Outgoing := Index([x]), x + Incoming := Index([o])];
    SuffixesDiffer(o, x);
    forall a, b ensures OutCount(db0, a, b) == InCount(db0, b, a) {
      assert Links(db0, a + Outgoing) == [] && Links(db0, b + Incoming) == [];
    }
    assert db == db0[o + Outgoing := Index([x])][x + Incoming := Index([o])];
    EdgeAdded(db0, db, o, x);
  }

  /** `deleteSelection` does no link maintenance: removing `x` from
      `o-outgoing` with it leaves `o` in `x-incoming`. */
  lemma DeleteSelectionBreaksLinks(o: ID, x: ID)
    ensures var db := map[o + Outgoing := Index([x]), x + Incoming := Index([o])];
            var s := State(db, o + Outgoing, Frame(o + Outgoing, 0), [], Viewing, [], None);
            LinksSymmetric(db) && DeleteSelection(s).Ok? && !LinksSymmetric(DeleteSelection(s).value.db)
  {
    OneEdgeSymmetric(o, x);
    var db := map[o + Outgoing := Index([x]), x + Incoming := Index([o])];
    SuffixesDiffer(o, x);
    var s := State(db, o + Outgoing, Frame(o + Outgoing, 0), [], Viewing, [], None);
    SpliceRemoveMultiset([x], 0);
    var db' := DeleteSelection(s).value.db;
    assert IndexAt(db', o + Outgoing) == Some([]);
    assert db'[x + Incoming] == db[x + Incoming];
    assert OutCount(db', o, x) == 0;
    assert InCount(db', x, o) == 1;
  }
}

=== FILE: model.dfy ===
/** The application state of `src/model.ts`: the card store plus the
    navigator (a stack of frames), the mode, the selection anchor and the
    clipboard, with every method of the `State` class as a function from the
    old state to the new one. */
module Model {
  import opened Options
  import opened Strings
  import opened Cards

  /** One breadcrumb: the index being browsed and the focused position in it
      (-1 when no card is focused). */
  datatype Frame = Frame(index: ID, focus: int)

  datatype Mode = Viewing | Editing | Selecting

  /** The breadcrumb stack is `below + [top]`; keeping the top frame apart
      makes an empty stack unrepresentable. */
  datatype State = State(
    db: Database,
    root: ID,
    top: Frame,
    below: seq<Frame>,
    mode: Mode,
    clipboard: seq<ID>,
    selection: Option<int>)
  {
    function Crumbs(): seq<Frame> {
      below + [top]
    }

    function Focus(): int {
      top.focus
    }

    function CurrentIndexID(): ID {
      top.index
    }

    function WithFocus(focus: int): State {
      this.(top := top.(focus := focus))
    }
  }

  /** What the source would fail on: a card used as an index that is missing
      or is a note, an array read outside the array, or a selection with no
      anchor. */
  datatype Error = NotAnIndex(id: ID) | OutOfRange(position: int) | MissingAnchor

  datatype Result<+T> = Ok(value: T) | Err(error: Error)

  /** The three identifiers `newNote` claims are all unused. */
  predicate FreshNote(db: Database, id: ID) {
    id !in db && id + Incoming !in db && id + Outgoing !in db
  }

  /** `db'` has the same keys as `db` and agrees with it outside `touched`. */
  predicate SameOutside(db: Database, db': Database, touched: set<ID>) {
    db'.Keys == db.Keys && forall k :: k in db && k !in touched ==> db'[k] == db[k]
  }

  lemma SameOutsideUpdate(db: Database, k: ID, v: Card, touched: set<ID>)
    requires k in db && k in touched
    ensures SameOutside(db, db[k := v], touched)
  {
  }

  lemma SameOutsideTrans(db: Database, db': Database, db'': Database, t: set<ID>, t': set<ID>)
    requires SameOutside(db, db', t) && SameOutside(db', db'', t')
    ensures SameOutside(db, db'', t + t')
  {
  }

  /** The entries an insertion or removal of `id` in the index `indexID` may
      touch: that index and, for a link index, `id`'s opposite link index. */
  function Touched(indexID: ID, id: ID): set<ID> {
    match BackLink(indexID, id)
    case None => {indexID}
    case Some(u) => {indexID, u.target}
  }

  /** The focus of the top frame points at a card of the current index or is
      -1. */
  predicate FocusInBounds(s: State) {
    match IndexAt(s.db, s.CurrentIndexID())
    case None => false
    case Some(c) => -1 <= s.Focus() <= |c| - 1
  }

  // -------------------------------------------------------------------
  // Construction

  /** `new State()` with `root` standing for the generated identifier. */
  function Init(root: ID): (s: State)
    ensures s.Crumbs() == [Frame(root, -1)]
    ensures IndexAt(s.db, root) == Some([]) && s.db.Keys == {root}
    ensures s.mode == Viewing && s.clipboard == [] && s.selection == None
    ensures s.root == root
  {
    State(map[root := Index([])], root, Frame(root, -1), [], Viewing, [], None)
  }

  // -------------------------------------------------------------------
  // Navigation

  /** Pushes a frame for `id` with nothing focused. */
  function Enter(s: State, id: ID): (r: State)
    ensures r.Crumbs() == s.Crumbs() + [Frame(id, -1)]
    ensures r.db == s.db && r.mode == s.mode && r.clipboard == s.clipboard && r.selection == s.selection
    ensures r.root == s.root
  {
    s.(top := Frame(id, -1), below := s.Crumbs())
  }

  /** Pops the top frame unless it is the only one. */
  function Exit(s: State): (r: State)
    ensures |s.Crumbs()| > 1 ==> r.Crumbs() == s.Crumbs()[..|s.Crumbs()| - 1]
    ensures |s.Crumbs()| == 1 ==> r == s
    ensures r.db == s.db && r.mode == s.mode && r.clipboard == s.clipboard && r.selection == s.selection
    ensures r.root == s.root
  {
    if |s.below| > 0 then
      s.(top := s.below[|s.below| - 1], below := s.below[..|s.below| - 1])
    else s
  }

  /** Moves the focus one card up: down to -1 while viewing, down to 0 while
      selecting, never while editing. */
  function GoUp(s: State): (r: State)
    ensures r == s.WithFocus(r.Focus())
    ensures r.Focus() == s.Focus() || r.Focus() == s.Focus() - 1
    ensures r.Focus() == s.Focus() - 1 <==>
              (s.mode == Viewing && s.Focus() > -1) || (s.mode == Selecting && s.Focus() > 0)
  {
    if s.mode == Viewing && s.Focus() > -1 then s.WithFocus(s.Focus() - 1)
    else if s.mode == Selecting && s.Focus() > 0 then s.WithFocus(s.Focus() - 1)
    else s
  }

  /** Moves the focus one card down unless it is on the last card, in any
      mode. */
  function GoDown(s: State): (r: Result<State>)
    ensures r.Ok? <==> IndexAt(s.db, s.CurrentIndexID()).Some?
    ensures r.Ok? ==> r.value == s.WithFocus(r.value.Focus())
    ensures r.Ok? ==> var len := |IndexAt(s.db, s.CurrentIndexID()).value|;
              if s.Focus() < len - 1 then r.value.Focus() == s.Focus() + 1
              else r.value.Focus() == s.Focus()
  {
    match IndexAt(s.db, s.CurrentIndexID())
    case None => Err(NotAnIndex(s.CurrentIndexID()))
    case Some(c) =>
      if s.Focus() < |c| - 1 then Ok(s.WithFocus(s.Focus() + 1)) else Ok(s)
  }

  // -------------------------------------------------------------------
  // Mutation

  /** `insertAfter(focus, id)`: puts `id` into the current index right after
      position `focus` and, when the current index is a link index, appends
      its owner to the opposite link index of `id`. */
  function InsertAfter(s: State, focus: int, id: ID): (r: Result<State>)
    ensures r.Ok? ==> r.value == s.(db := r.value.db)
    ensures r.Ok? <==>
              IndexAt(s.db, s.CurrentIndexID()).Some? &&
              (BackLink(s.CurrentIndexID(), id).Some? ==>
                 IndexAt(s.db, BackLink(s.CurrentIndexID(), id).value.target).Some?)
    ensures r.Ok? && -1 <= focus < |IndexAt(s.db, s.CurrentIndexID()).value| ==>
              var c := IndexAt(s.db, s.CurrentIndexID()).value;
              IndexAt(r.value.db, s.CurrentIndexID()) == Some(c[..focus + 1] + [id] + c[focus + 1..])
    ensures r.Ok? && focus >= |IndexAt(s.db, s.CurrentIndexID()).value| ==>
              IndexAt(r.value.db, s.CurrentIndexID()) == Some(IndexAt(s.db, s.CurrentIndexID()).value + [id])
    ensures r.Ok? ==>
              var c := IndexAt(s.db, s.CurrentIndexID()).value;
              var p := SpliceStart(|c|, focus + 1);
              IndexAt(r.value.db, s.CurrentIndexID()) == Some(c[..p] + [id] + c[p..])
    ensures r.Ok? ==> SameOutside(s.db, r.value.db, Touched(s.CurrentIndexID(), id))
    ensures r.Ok? && BackLink(s.CurrentIndexID(), id).Some? ==>
              var u := BackLink(s.CurrentIndexID(), id).value;
              IndexAt(r.value.db, u.target) == Some(IndexAt(s.db, u.target).value + [u.owner])
  {
    var cur := s.CurrentIndexID();
    match IndexAt(s.db, cur)
    case None => Err(NotAnIndex(cur))
    case Some(c) =>
      SpliceInsertAt(c, focus + 1, id);
      var db1 := s.db[cur := Index(Splice(c, focus + 1, 0, [id]))];
      match BackLink(cur, id)
      case None => Ok(s.(db := db1))
      case Some(u) =>
        SuffixesDiffer(Owner(cur), id);
        SuffixesDiffer(id, Owner(cur));
        match IndexAt(db1, u.target)
        case None => Err(NotAnIndex(u.target))
        case Some(back) => Ok(s.(db := db1[u.target := Index(back + [u.owner])]))
  }

  /** Brings the focus back onto the last card when a removal left it one
      past the end. */
  function ClampFocus(s: State, len: nat): (r: State)
    ensures r == s.WithFocus(r.Focus())
    ensures r.Focus() == (if s.Focus() > len - 1 then s.Focus() - 1 else s.Focus())
  {
    if s.Focus() > len - 1 then s.WithFocus(s.Focus() - 1) else s
  }

  /** Stores `c1` as the current index and pulls back a focus that is past
      its end; everything else stays. */
  function StoreClamped(s: State, c1: seq<ID>): (r: State)
    requires IndexAt(s.db, s.CurrentIndexID()).Some?
    ensures SameOutside(s.db, r.db, {s.CurrentIndexID()})
    ensures r == s.(db := r.db).WithFocus(r.Focus())
    ensures IndexAt(r.db, s.CurrentIndexID()) == Some(c1)
    ensures r.Focus() == (if s.Focus() > |c1| - 1 then s.Focus() - 1 else s.Focus())
  {
    var cur := s.CurrentIndexID();
    SameOutsideUpdate(s.db, cur, Index(c1), {cur});
    var s0 := s.(db := s.db[cur := Index(c1)]);
    assert IndexAt(s0.db, cur) == Some(c1);
    ClampFocus(s0, |c1|)
  }

  /** `back.splice(back.findIndex(y => y === owner), 1)`: drops the first
      `owner`, or the last element when `owner` is not there. */
  function SpliceOut(back: seq<ID>, owner: ID): (r: seq<ID>)
    ensures owner in back ==>
              var i := FindIndex(back, owner);
              r == back[..i] + back[i + 1..] && multiset(r) == multiset(back) - multiset{owner}
    ensures owner !in back ==> r == if |back| == 0 then back else back[..|back| - 1]
  {
    var at := FindIndex(back, owner);
    SpliceRemoveLast(back);
    if at >= 0 then SpliceRemoveMultiset(back, at); Splice(back, at, 1, [])
    else Splice(back, at, 1, [])
  }

  /** Removes the first occurrence of `owner` from the index `target`, as
      `splice(findIndex(...), 1)` does: when `owner` is not there `findIndex`
      yields -1 and the splice drops the last element instead. */
  function Unlink(db: Database, target: ID, owner: ID): (r: Result<Database>)
    ensures r.Ok? <==> IndexAt(db, target).Some?
    ensures r.Ok? ==> SameOutside(db, r.value, {target})
    ensures r.Ok? && owner in IndexAt(db, target).value ==>
              var back := IndexAt(db, target).value;
              var i := FindIndex(back, owner);
              IndexAt(r.value, target) == Some(back[..i] + back[i + 1..]) &&
              multiset(IndexAt(r.value, target).value) == multiset(back) - multiset{owner}
    ensures r.Ok? && owner !in IndexAt(db, target).value ==>
              var back := IndexAt(db, target).value;
              IndexAt(r.value, target) == Some(if |back| == 0 then back else back[..|back| - 1])
  {
    match IndexAt(db, target)
    case None => Err(NotAnIndex(target))
    case Some(back) =>
      var rest := SpliceOut(back, owner);
      SameOutsideUpdate(db, target, Index(rest), {target});
      assert IndexAt(db[target := Index(rest)], target) == Some(rest);
      Ok(db[target := Index(rest)])
  }

  /** `delete(focus)` at a position inside the current index `c`. */
  function DeleteAt(s: State, c: seq<ID>, focus: int): (r: Result<State>)
    requires IndexAt(s.db, s.CurrentIndexID()) == Some(c) && 0 <= focus < |c|
    ensures r.Ok? <==>
              (BackLink(s.CurrentIndexID(), c[focus]).Some? ==>
                 IndexAt(s.db, BackLink(s.CurrentIndexID(), c[focus]).value.target).Some?)
    ensures r.Ok? ==> r.value == s.(db := r.value.db).WithFocus(r.value.Focus())
    ensures r.Ok? ==>
              SameOutside(s.db, r.value.db, Touched(s.CurrentIndexID(), c[focus])) &&
              IndexAt(r.value.db, s.CurrentIndexID()) == Some(c[..focus] + c[focus + 1..]) &&
              r.value.Focus() == (if s.Focus() > |c| - 2 then s.Focus() - 1 else s.Focus())
    ensures r.Ok? && BackLink(s.CurrentIndexID(), c[focus]).Some? ==>
              var u := BackLink(s.CurrentIndexID(), c[focus]).value;
              IndexAt(s.db, u.target).Some? && IndexAt(r.value.db, u.target).Some? &&
              var back := IndexAt(s.db, u.target).value;
              (u.owner in back ==>
                 var i := FindIndex(back, u.owner);
                 IndexAt(r.value.db, u.target) == Some(back[..i] + back[i + 1..]) &&
                 multiset(IndexAt(r.value.db, u.target).value) == multiset(back) - multiset{u.owner}) &&
              (u.owner !in back ==>
                 IndexAt(r.value.db, u.target) == Some(if |back| == 0 then back else back[..|back| - 1]))
  {
    var cur := s.CurrentIndexID();
    var s1 := DropAt(s, c, focus);
    match BackLink(cur, c[focus])
    case None => Ok(s1)
    case Some(u) =>
      BackLinkElsewhere(cur, c[focus]);
      assert IndexAt(s1.db, u.target) == IndexAt(s.db, u.target);
      match Unlink(s1.db, u.target, u.owner)
      case Err(e) => Err(e)
      case Ok(db2) =>
        SameOutsideTrans(s.db, s1.db, db2, {cur}, {u.target});
        assert Touched(cur, c[focus]) == {cur} + {u.target};
        assert IndexAt(db2, cur) == IndexAt(s1.db, cur);
        Ok(s1.(db := db2))
  }

  /** `delete(focus)`: removes position `focus` of the current index, pulls
      the focus back if it fell off the end and, for a link index, unlinks
      the owner from the removed card's opposite link index. */
  function Delete(s: State, focus: int): (r: Result<State>)
    ensures r.Ok? <==>
              IndexAt(s.db, s.CurrentIndexID()).Some? &&
              var c := IndexAt(s.db, s.CurrentIndexID()).value;
              if 0 <= focus < |c| then
                BackLink(s.CurrentIndexID(), c[focus]).Some? ==>
                  IndexAt(s.db, BackLink(s.CurrentIndexID(), c[focus]).value.target).Some?
              else !EndsWith(s.CurrentIndexID(), Outgoing) && !EndsWith(s.CurrentIndexID(), Incoming)
    ensures r.Ok? ==> r.value == s.(db := r.value.db).WithFocus(r.value.Focus())
    ensures r.Ok? ==> r.value.db.Keys == s.db.Keys
    ensures r.Ok? ==> IndexAt(r.value.db, s.CurrentIndexID()).Some?
    ensures r.Ok? ==>
              var len := |IndexAt(r.value.db, s.CurrentIndexID()).value|;
              r.value.Focus() == (if s.Focus() > len - 1 then s.Focus() - 1 else s.Focus())
    ensures r.Ok? && 0 <= focus < |IndexAt(s.db, s.CurrentIndexID()).value| ==>
              var c := IndexAt(s.db, s.CurrentIndexID()).value;
              r == DeleteAt(s, c, focus)
    ensures r.Ok? && !(0 <= focus < |IndexAt(s.db, s.CurrentIndexID()).value|) ==>
              SameOutside(s.db, r.value.db, {s.CurrentIndexID()})
    ensures r.Ok? && focus >= |IndexAt(s.db, s.CurrentIndexID()).value| ==>
              IndexAt(r.value.db, s.CurrentIndexID()) == IndexAt(s.db, s.CurrentIndexID())
    ensures r.Ok? && focus < 0 && |IndexAt(s.db, s.CurrentIndexID()).value| > 0 ==>
              var c := IndexAt(s.db, s.CurrentIndexID()).value;
              var p := SpliceStart(|c|, focus);
              IndexAt(r.value.db, s.CurrentIndexID()) == Some(c[..p] + c[p + 1..])
  {
    var cur := s.CurrentIndexID();
    match IndexAt(s.db, cur)
    case None => Err(NotAnIndex(cur))
    case Some(c) =>
      if !(0 <= focus < |c|) then
        // the removed card is `undefined`: a plain index is spliced, while the
        // link lookup of an `undefined` identifier fails
        if BackLink(cur, "").None? then Ok(RemoveAt(s, c, focus))
        else Err(OutOfRange(focus))
      else DeleteAt(s, c, focus)
  }

  /** `newNote()` with `id` standing for the generated identifier: an empty
      note and its two empty link indices. */
  function NewNote(s: State, id: ID): (r: State)
    requires FreshNote(s.db, id)
    ensures r == s.(db := r.db)
    ensures r.db.Keys == s.db.Keys + {id, id + Incoming, id + Outgoing}
    ensures forall k :: k in s.db ==> r.db[k] == s.db[k]
    ensures r.db[id] == Note("")
    ensures IndexAt(r.db, id + Incoming) == Some([]) && IndexAt(r.db, id + Outgoing) == Some([])
  {
    s.(db := s.db[id := Note("")][id + Incoming := Index([])][id + Outgoing := Index([])])
  }

  /** `newIndex()` with `id` standing for the generated identifier. */
  function NewIndex(s: State, id: ID): (r: State)
    requires id !in s.db
    ensures r == s.(db := r.db)
    ensures r.db.Keys == s.db.Keys + {id}
    ensures forall k :: k in s.db ==> r.db[k] == s.db[k]
    ensures IndexAt(r.db, id) == Some([])
  {
    s.(db := s.db[id := Index([])])
  }

  /** Lower and upper end of the inclusive selection range. */
  function Lower(focus: int, anchor: int): int {
    if focus <= anchor then focus else anchor
  }

  function Upper(focus: int, anchor: int): int {
    if focus <= anchor then anchor else focus
  }

  /** `splice(p, 1)` on the current index `c` at an in-range `p`, then the
      focus is pulled back if it fell off the end. */
  function DropAt(s: State, c: seq<ID>, p: int): (r: State)
    requires IndexAt(s.db, s.CurrentIndexID()) == Some(c) && 0 <= p < |c|
    ensures SameOutside(s.db, r.db, {s.CurrentIndexID()})
    ensures r == s.(db := r.db).WithFocus(r.Focus())
    ensures IndexAt(r.db, s.CurrentIndexID()) == Some(c[..p] + c[p + 1..])
    ensures r.Focus() == (if s.Focus() > |c| - 2 then s.Focus() - 1 else s.Focus())
  {
    var cur := s.CurrentIndexID();
    var c1 := Splice(c, p, 1, []);
    SameOutsideUpdate(s.db, cur, Index(c1), {cur});
    SpliceRemoveMultiset(c, p);
    var s0 := s.(db := s.db[cur := Index(c1)]);
    assert IndexAt(s0.db, cur) == Some(c1);
    ClampFocus(s0, |c1|)
  }

  /** `splice(p, 1)` on the current index `c` at any position `p`, then the
      focus is pulled back if it fell off the end. This is `delete(p)` in a
      plain index and the viewing half of `deleteSelection()` with `p` the
      focus: a position past the end removes nothing and a negative one
      counts back from the end, so -1 removes the last card. */
  function RemoveAt(s: State, c: seq<ID>, p: int): (r: State)
    requires IndexAt(s.db, s.CurrentIndexID()) == Some(c)
    ensures SameOutside(s.db, r.db, {s.CurrentIndexID()})
    ensures r == s.(db := r.db).WithFocus(r.Focus())
    ensures IndexAt(r.db, s.CurrentIndexID()).Some?
    ensures var len := |IndexAt(r.db, s.CurrentIndexID()).value|;
            len == |c| || len == |c| - 1
    ensures 0 <= p < |c| ==> IndexAt(r.db, s.CurrentIndexID()) == Some(c[..p] + c[p + 1..])
    ensures p >= |c| ==> IndexAt(r.db, s.CurrentIndexID()) == Some(c)
    ensures p < 0 && |c| > 0 ==>
              var q := SpliceStart(|c|, p);
              IndexAt(r.db, s.CurrentIndexID()) == Some(c[..q] + c[q + 1..])
    ensures var len := |IndexAt(r.db, s.CurrentIndexID()).value|;
            r.Focus() == (if s.Focus() > len - 1 then s.Focus() - 1 else s.Focus())
  {
    SpliceOne(c, p);
    StoreClamped(s, Splice(c, p, 1, []))
  }

  /** What `splice(lower, upper - lower + 1)` followed by the focus clamp
      leaves in the current index, for a range of any position: one reaching
      past the end cuts to the end, one starting past the end cuts nothing and
      a negative lower end counts back from the end. The focus is the lower
      end, pulled back by one when that is past the end of the result. */
  predicate RangeRemoved(s: State, c: seq<ID>, anchor: int, r: State) {
    IndexAt(r.db, s.CurrentIndexID()).Some? &&
    CutTo(c, Lower(s.Focus(), anchor), Upper(s.Focus(), anchor), IndexAt(r.db, s.CurrentIndexID()).value, r.Focus())
  }

  /** `c1` and `focus` are what cutting the inclusive range `lo..hi` out of
      `c` and clamping `lo` leave. */
  predicate CutTo(c: seq<ID>, lo: int, hi: int, c1: seq<ID>, focus: int) {
    var st := SpliceStart(|c|, lo);
    lo <= hi &&
    (0 <= lo && hi < |c| ==> c1 == c[..lo] + c[hi + 1..]) &&
    (0 <= lo < |c| <= hi ==> c1 == c[..lo]) &&
    (lo >= |c| ==> c1 == c) &&
    (lo < 0 ==> c1 == c[..st] + c[if st + (hi - lo + 1) < |c| then st + (hi - lo + 1) else |c|..]) &&
    focus == (if lo > |c1| - 1 then lo - 1 else lo)
  }

  /** The selecting half of `deleteSelection()`: `splice(lower, upper - lower
      + 1)` on the current index `c`, back to viewing with no anchor, the
      focus on `lower` and then pulled back if it fell off the end. A range
      reaching past the end cuts to the end; one starting past the end cuts
      nothing; a negative lower end counts back from the end. */
  function RemoveRange(s: State, c: seq<ID>, anchor: int): (r: State)
    requires IndexAt(s.db, s.CurrentIndexID()) == Some(c)
    ensures SameOutside(s.db, r.db, {s.CurrentIndexID()})
    ensures r == s.(db := r.db, mode := Viewing, selection := None).WithFocus(r.Focus())
    ensures IndexAt(r.db, s.CurrentIndexID()).Some?
    ensures var lo := Lower(s.Focus(), anchor);
            var hi := Upper(s.Focus(), anchor);
            0 <= lo && hi < |c| ==>
              IndexAt(r.db, s.CurrentIndexID()) == Some(c[..lo] + c[hi + 1..]) &&
              r.Focus() == (if lo == |c| - (hi - lo + 1) then lo - 1 else lo)
    ensures RangeRemoved(s, c, anchor, r)
  {
    var cur := s.CurrentIndexID();
    var lo := Lower(s.Focus(), anchor);
    var hi := Upper(s.Focus(), anchor);
    var r := StoreClamped(s.(mode := Viewing, selection := None).WithFocus(lo), Splice(c, lo, hi - lo + 1, []));
    CutBySplice(c, lo, hi, r.Focus());
    if 0 <= lo && hi < |c| then
      assert |c[..lo] + c[hi + 1..]| == |c| - (hi - lo + 1);
      r
    else r
  }

  /** The splice and the clamp of the selecting half meet `CutTo`. */
  lemma CutBySplice(c: seq<ID>, lo: int, hi: int, focus: int)
    requires lo <= hi
    requires focus == (if lo > |Splice(c, lo, hi - lo + 1, [])| - 1 then lo - 1 else lo)
    ensures CutTo(c, lo, hi, Splice(c, lo, hi - lo + 1, []), focus)
  {
    SpliceCut(c, lo, hi);
  }

  /** `deleteSelection()`: while viewing, removes the focused card; while
      selecting, removes the whole range, returns to viewing with no anchor
      and focuses the range's lower end. Either way the focus is then pulled
      back if it fell off the end. No link index is updated. */
  function DeleteSelection(s: State): (r: Result<State>)
    ensures r.Ok? <==> IndexAt(s.db, s.CurrentIndexID()).Some? && !(s.mode == Selecting && s.selection.None?)
    ensures r.Ok? ==> SameOutside(s.db, r.value.db, {s.CurrentIndexID()})
    ensures r.Ok? ==>
              r.value == s.(db := r.value.db, mode := r.value.mode, selection := r.value.selection)
                          .WithFocus(r.value.Focus())
    ensures r.Ok? ==> IndexAt(r.value.db, s.CurrentIndexID()).Some?
    ensures r.Ok? && s.mode != Selecting ==>
              r.value.mode == s.mode && r.value.selection == s.selection &&
              var len := |IndexAt(r.value.db, s.CurrentIndexID()).value|;
              r.value.Focus() == (if s.Focus() > len - 1 then s.Focus() - 1 else s.Focus())
    ensures r.Ok? && s.mode == Editing ==> r.value.db == s.db
    ensures r.Ok? && s.mode == Viewing && 0 <= s.Focus() < |IndexAt(s.db, s.CurrentIndexID()).value| ==>
              var c := IndexAt(s.db, s.CurrentIndexID()).value;
              IndexAt(r.value.db, s.CurrentIndexID()) == Some(c[..s.Focus()] + c[s.Focus() + 1..]) &&
              r.value.mode == Viewing && r.value.selection == s.selection &&
              r.value.Focus() == (if s.Focus() > |c| - 2 then s.Focus() - 1 else s.Focus())
    ensures r.Ok? && s.mode == Selecting ==>
              var c := IndexAt(s.db, s.CurrentIndexID()).value;
              var lo := Lower(s.Focus(), s.selection.value);
              var hi := Upper(s.Focus(), s.selection.value);
              r.value.mode == Viewing && r.value.selection == None &&
              (0 <= lo && hi < |c| ==>
                 IndexAt(r.value.db, s.CurrentIndexID()) == Some(c[..lo] + c[hi + 1..]) &&
                 r.value.Focus() == (if lo == |c| - (hi - lo + 1) then lo - 1 else lo))
    ensures r.Ok? && s.mode == Selecting ==>
              RangeRemoved(s, IndexAt(s.db, s.CurrentIndexID()).value, s.selection.value, r.value)
  {
    var cur := s.CurrentIndexID();
    match IndexAt(s.db, cur)
    case None => Err(NotAnIndex(cur))
    case Some(c) => DeleteIn(s, c)
  }

  /** `deleteSelection()` once the current index `c` is known. */
  function DeleteIn(s: State, c: seq<ID>): (r: Result<State>)
    requires IndexAt(s.db, s.CurrentIndexID()) == Some(c)
    ensures r.Ok? <==> !(s.mode == Selecting && s.selection.None?)
    ensures r.Ok? ==> SameOutside(s.db, r.value.db, {s.CurrentIndexID()})
    ensures r.Ok? ==>
              r.value == s.(db := r.value.db, mode := r.value.mode, selection := r.value.selection)
                          .WithFocus(r.value.Focus())
    ensures r.Ok? ==> IndexAt(r.value.db, s.CurrentIndexID()).Some?
    ensures r.Ok? && s.mode != Selecting ==>
              r.value.mode == s.mode && r.value.selection == s.selection &&
              var len := |IndexAt(r.value.db, s.CurrentIndexID()).value|;
              r.value.Focus() == (if s.Focus() > len - 1 then s.Focus() - 1 else s.Focus())
    ensures r.Ok? && s.mode == Editing ==> r.value.db == s.db
    ensures r.Ok? && s.mode == Viewing && 0 <= s.Focus() < |c| ==>
              IndexAt(r.value.db, s.CurrentIndexID()) == Some(c[..s.Focus()] + c[s.Focus() + 1..]) &&
              r.value.Focus() == (if s.Focus() > |c| - 2 then s.Focus() - 1 else s.Focus())
    ensures r.Ok? && s.mode == Selecting ==>
              var lo := Lower(s.Focus(), s.selection.value);
              var hi := Upper(s.Focus(), s.selection.value);
              r.value.mode == Viewing && r.value.selection == None &&
              (0 <= lo && hi < |c| ==>
                 IndexAt(r.value.db, s.CurrentIndexID()) == Some(c[..lo] + c[hi + 1..]) &&
                 r.value.Focus() == (if lo == |c| - (hi - lo + 1) then lo - 1 else lo))
    ensures r.Ok? && s.mode == Selecting ==> RangeRemoved(s, c, s.selection.value, r.value)
  {
    match s.mode
    case Viewing =>
      var r := RemoveAt(s, c, s.Focus());
      assert 0 <= s.Focus() < |c| ==> |c[..s.Focus()] + c[s.Focus() + 1..]| == |c| - 1;
      Ok(r)
    case Selecting =>
      (match s.selection
       case None => Err(MissingAnchor)
       case Some(anchor) => Ok(RemoveRange(s, c, anchor)))
    case Editing => Ok(ClampFocus(s, |c|))
  }

  /** `copy()`: while viewing, the clipboard becomes the focused card; while
      selecting, the cards of the range in index order whichever end the
      anchor is, and nothing when there is no anchor. Nothing else changes. */
  function Copy(s: State): (r: Result<State>)
    ensures r.Ok? ==> r.value == s.(clipboard := r.value.clipboard)
    ensures r.Ok? && (s.mode == Viewing || (s.mode == Selecting && s.selection.Some?)) ==>
              IndexAt(s.db, s.CurrentIndexID()).Some?
    ensures s.mode == Editing ==> r == Ok(s)
    ensures s.mode == Selecting ==>
              (r.Ok? <==> (s.selection.Some? ==>
                             IndexAt(s.db, s.CurrentIndexID()).Some? &&
                             0 <= Lower(s.Focus(), s.selection.value) &&
                             Upper(s.Focus(), s.selection.value) < |IndexAt(s.db, s.CurrentIndexID()).value|))
    ensures s.mode == Selecting && s.selection.None? ==> r == Ok(s.(clipboard := []))
    ensures s.mode == Viewing ==>
              (r.Ok? <==> IndexAt(s.db, s.CurrentIndexID()).Some? &&
                          0 <= s.Focus() < |IndexAt(s.db, s.CurrentIndexID()).value|)
    ensures s.mode == Viewing && r.Ok? ==>
              r.value.clipboard == [IndexAt(s.db, s.CurrentIndexID()).value[s.Focus()]]
    ensures s.mode == Selecting && s.selection.Some? && r.Ok? ==>
              var c := IndexAt(s.db, s.CurrentIndexID()).value;
              var lo := Lower(s.Focus(), s.selection.value);
              var hi := Upper(s.Focus(), s.selection.value);
              0 <= lo <= hi < |c| &&
              |r.value.clipboard| == hi - lo + 1 &&
              forall i :: 0 <= i < |r.value.clipboard| ==> r.value.clipboard[i] == c[lo + i]
  {
    var cur := s.CurrentIndexID();
    match s.mode
    case Editing => Ok(s)
    case Viewing =>
      (match IndexAt(s.db, cur)
       case None => Err(NotAnIndex(cur))
       case Some(c) =>
         if 0 <= s.Focus() < |c| then Ok(s.(clipboard := [c[s.Focus()]]))
         else Err(OutOfRange(s.Focus())))
    case Selecting =>
      match s.selection
      // without an anchor the loop bounds are NaN: the loop never runs and
      // the current index is never read
      case None => Ok(s.(clipboard := []))
      case Some(anchor) =>
        match IndexAt(s.db, cur)
        case None => Err(NotAnIndex(cur))
        case Some(c) =>
          var lo := Lower(s.Focus(), anchor);
          var hi := Upper(s.Focus(), anchor);
          if lo < 0 then Err(OutOfRange(lo))
          else if hi >= |c| then Err(OutOfRange(hi))
          else Ok(s.(clipboard := c[lo..hi + 1]))
  }

  /** Every opposite link index that inserting `items` into `indexID` would
      append to is an index of `db`. */
  predicate BackLinksPresent(db: Database, indexID: ID, items: seq<ID>) {
    forall i :: 0 <= i < |items| && BackLink(indexID, items[i]).Some? ==>
      IndexAt(db, BackLink(indexID, items[i]).value.target).Some?
  }

  /** A successful insertion keeps every index an index and adds none. */
  lemma InsertAfterKeepsIndices(s: State, focus: int, id: ID, k: ID)
    requires InsertAfter(s, focus, id).Ok?
    ensures IndexAt(InsertAfter(s, focus, id).value.db, k).Some? <==> IndexAt(s.db, k).Some?
  {
  }

  /** After inserting `items[0]`, the rest of `items` still finds every
      opposite link index the whole of `items` found before. */
  lemma PasteStep(s: State, at: int, items: seq<ID>)
    requires |items| > 0 && InsertAfter(s, at, items[0]).Ok?
    ensures var s1 := InsertAfter(s, at, items[0]).value;
            IndexAt(s1.db, s.CurrentIndexID()).Some? &&
            (BackLinksPresent(s.db, s.CurrentIndexID(), items) <==>
               BackLinksPresent(s1.db, s.CurrentIndexID(), items[1..]))
  {
    var cur := s.CurrentIndexID();
    var s1 := InsertAfter(s, at, items[0]).value;
    InsertAfterKeepsIndices(s, at, items[0], cur);
    forall i | 0 <= i < |items| && BackLink(cur, items[i]).Some?
      ensures IndexAt(s1.db, BackLink(cur, items[i]).value.target).Some? <==>
              IndexAt(s.db, BackLink(cur, items[i]).value.target).Some?
    {
      InsertAfterKeepsIndices(s, at, items[0], BackLink(cur, items[i]).value.target);
    }
    assert forall i :: 1 <= i < |items| ==> items[1..][i - 1] == items[i];
  }

  /** Inserts `items` one after the other, the first after position `at`,
      each through `InsertAfter` so that link indices are maintained. */
  function PasteItems(s: State, at: int, items: seq<ID>): (r: Result<State>)
    ensures r.Ok? <==>
              |items| == 0 ||
              (IndexAt(s.db, s.CurrentIndexID()).Some? && BackLinksPresent(s.db, s.CurrentIndexID(), items))
    ensures r.Ok? ==> r.value == s.(db := r.value.db)
    ensures r.Ok? ==> r.value.db.Keys == s.db.Keys
    ensures r.Ok? && IndexAt(s.db, s.CurrentIndexID()).Some? &&
            -1 <= at < |IndexAt(s.db, s.CurrentIndexID()).value| ==>
              var c := IndexAt(s.db, s.CurrentIndexID()).value;
              IndexAt(r.value.db, s.CurrentIndexID()) == Some(c[..at + 1] + items + c[at + 1..])
    decreases |items|
  {
    if |items| == 0 then
      if IndexAt(s.db, s.CurrentIndexID()).Some? then
        var c := IndexAt(s.db, s.CurrentIndexID()).value;
        assert -1 <= at < |c| ==> c[..at + 1] + items + c[at + 1..] == c;
        Ok(s)
      else Ok(s)
    else
      match InsertAfter(s, at, items[0])
      case Err(e) => Err(e)
      case Ok(s1) =>
        PasteStep(s, at, items);
        var r := PasteItems(s1, at + 1, items[1..]);
        if r.Ok? && IndexAt(s.db, s.CurrentIndexID()).Some? &&
           -1 <= at < |IndexAt(s.db, s.CurrentIndexID()).value| then
          var c := IndexAt(s.db, s.CurrentIndexID()).value;
          assert IndexAt(s1.db, s.CurrentIndexID()) == Some(c[..at + 1] + [items[0]] + c[at + 1..]);
          InsertTwice(c, at, items[0], items[1..]);
          assert items == [items[0]] + items[1..];
          r
        else r
  }

  /** Inserting `x` after `at`, then `rest` after `x`, inserts `[x] + rest`
      after `at`. */
  lemma InsertTwice<T>(c: seq<T>, at: int, x: T, rest: seq<T>)
    requires -1 <= at < |c|
    ensures var c1 := c[..at + 1] + [x] + c[at + 1..];
            c1[..at + 2] + rest + c1[at + 2..] == c[..at + 1] + ([x] + rest) + c[at + 1..]
  {
    var c1 := c[..at + 1] + [x] + c[at + 1..];
    assert c1[..at + 2] == c[..at + 1] + [x];
    assert c1[at + 2..] == c[at + 1..];
  }

  /** `paste()`: the clipboard goes in right after the focused card, in
      clipboard order; focus and clipboard stay as they were. */
  function Paste(s: State): (r: Result<State>)
    ensures r.Ok? <==>
              |s.clipboard| == 0 ||
              (IndexAt(s.db, s.CurrentIndexID()).Some? && BackLinksPresent(s.db, s.CurrentIndexID(), s.clipboard))
    ensures r.Ok? ==> r.value == s.(db := r.value.db)
    ensures r.Ok? && FocusInBounds(s) ==>
              var c := IndexAt(s.db, s.CurrentIndexID()).value;
              IndexAt(r.value.db, s.CurrentIndexID()) ==
                Some(c[..s.Focus() + 1] + s.clipboard + c[s.Focus() + 1..])
  {
    PasteItems(s, s.Focus(), s.clipboard)
  }
}

=== FILE: navigation.dfy ===
/** Focus bounds: every operation of `State` keeps the focus of the top frame
    within `[-1, length - 1]` of the current index. */
module Navigation {
  import opened Options
  import opened Cards
  import opened Model

  /** Length of the current index (0 when there is none). */
  function CurrentLength(s: State): nat {
    match IndexAt(s.db, s.CurrentIndexID())
    case None => 0
    case Some(c) => |c|
  }

  lemma InitFocusInBounds(root: ID)
    ensures FocusInBounds(Init(root))
    ensures Exit(Init(root)) == Init(root)
  {
  }

  /** Leaving a frame just entered restores the state. */
  lemma ExitUndoesEnter(s: State, id: ID)
    ensures Exit(Enter(s, id)) == s
  {
  }

  /** Moving up never leaves the bounds, and while selecting it never goes
      above the first card. */
  lemma GoUpInBounds(s: State)
    requires FocusInBounds(s)
    ensures FocusInBounds(GoUp(s))
    ensures s.mode == Selecting && s.Focus() >= 0 ==> GoUp(s).Focus() >= 0
    ensures s.mode == Editing ==> GoUp(s) == s
  {
  }

  /** Moving down never passes the last card. */
  lemma GoDownInBounds(s: State)
    requires FocusInBounds(s)
    ensures GoDown(s).Ok? && FocusInBounds(GoDown(s).value)
    ensures GoDown(s).value.Focus() >= s.Focus()
  {
  }

  lemma SpliceInsertLength<T>(c: seq<T>, p: int, x: T)
    ensures |Splice(c, p, 0, [x])| == |c| + 1
  {
  }

  lemma SpliceRemoveLength<T>(c: seq<T>, p: int, n: int)
    ensures |c| - (if n < 0 then 0 else n) <= |Splice(c, p, n, [])| <= |c|
  {
  }

  /** Insertion lengthens the current index by one and leaves the focus
      alone. */
  lemma InsertAfterInBounds(s: State, focus: int, id: ID)
    requires FocusInBounds(s)
    requires InsertAfter(s, focus, id).Ok?
    ensures FocusInBounds(InsertAfter(s, focus, id).value)
    ensures CurrentLength(InsertAfter(s, focus, id).value) == CurrentLength(s) + 1
  {
    var c := IndexAt(s.db, s.CurrentIndexID()).value;
    SpliceInsertLength(c, focus + 1, id);
    var r := InsertAfter(s, focus, id).value;
    assert r.db[s.CurrentIndexID()] == Index(Splice(c, focus + 1, 0, [id])) by {
      if BackLink(s.CurrentIndexID(), id).Some? {
        Cards.SuffixesDiffer(Owner(s.CurrentIndexID()), id);
        Cards.SuffixesDiffer(id, Owner(s.CurrentIndexID()));
      }
    }
  }

  lemma {:induction false} PasteItemsInBounds(s: State, at: int, items: seq<ID>)
    requires FocusInBounds(s)
    requires PasteItems(s, at, items).Ok?
    ensures FocusInBounds(PasteItems(s, at, items).value)
    ensures CurrentLength(PasteItems(s, at, items).value) == CurrentLength(s) + |items|
    decreases |items|
  {
    if |items| > 0 {
      InsertAfterInBounds(s, at, items[0]);
      PasteItemsInBounds(InsertAfter(s, at, items[0]).value, at + 1, items[1..]);
    }
  }

  lemma PasteInBounds(s: State)
    requires FocusInBounds(s)
    requires Paste(s).Ok?
    ensures FocusInBounds(Paste(s).value)
  {
    PasteItemsInBounds(s, s.Focus(), s.clipboard);
  }

  /** Removal pulls a focus that fell off the end back onto the last card. */
  lemma DeleteInBounds(s: State, focus: int)
    requires FocusInBounds(s)
    requires Delete(s, focus).Ok?
    ensures FocusInBounds(Delete(s, focus).value)
  {
    var cur := s.CurrentIndexID();
    var c := IndexAt(s.db, cur).value;
    var c1 := Splice(c, focus, 1, []);
    SpliceRemoveLength(c, focus, 1);
    var r := Delete(s, focus).value;
    assert r.db[cur] == Index(c1) by {
      if 0 <= focus < |c| && BackLink(cur, c[focus]).Some? {
        Cards.SuffixesDiffer(Owner(cur), c[focus]);
        Cards.SuffixesDiffer(c[focus], Owner(cur));
      }
    }
  }

  /** Removing the selection keeps the focus in bounds, provided the anchor
      was in the same bounds. */
  lemma DeleteSelectionInBounds(s: State)
    requires FocusInBounds(s)
    requires s.mode == Selecting && s.selection.Some? ==>
               -1 <= s.selection.value <= CurrentLength(s) - 1
    requires DeleteSelection(s).Ok?
    ensures FocusInBounds(DeleteSelection(s).value)
    ensures s.mode != Editing ==> DeleteSelection(s).value.mode == Viewing
  {
    if s.mode == Selecting {
      RangeRemovalInBounds(s);
    } else {
      var c := IndexAt(s.db, s.CurrentIndexID()).value;
      SpliceRemoveLength(c, s.Focus(), 1);
    }
  }

  lemma RangeRemovalInBounds(s: State)
    requires FocusInBounds(s) && s.mode == Selecting && s.selection.Some?
    requires -1 <= s.selection.value <= CurrentLength(s) - 1
    requires DeleteSelection(s).Ok?
    ensures FocusInBounds(DeleteSelection(s).value)
  {
    var cur := s.CurrentIndexID();
    var c := IndexAt(s.db, cur).value;
    var lo := Lower(s.Focus(), s.selection.value);
    var hi := Upper(s.Focus(), s.selection.value);
    var c1 := Splice(c, lo, hi - lo + 1, []);
    SpliceRemoveLength(c, lo, hi - lo + 1);
    if lo >= 0 {
      SpliceRemoveRange(c, lo, hi);
    }
    var r := DeleteSelection(s).value;
    assert IndexAt(r.db, cur) == Some(c1);
    assert r.Focus() == (if lo > |c1| - 1 then lo - 1 else lo);
  }

  lemma NewNoteInBounds(s: State, id: ID)
    requires FreshNote(s.db, id) && FocusInBounds(s)
    ensures FocusInBounds(NewNote(s, id))
    ensures CurrentLength(NewNote(s, id)) == CurrentLength(s)
  {
  }

  /** A successful copy of a selection puts exactly the range on the
      clipboard. */
  lemma CopiedRange(s: State)
    requires s.mode == Selecting && s.selection.Some? && Copy(s).Ok?
    ensures var c := IndexAt(s.db, s.CurrentIndexID()).value;
            var lo := Lower(s.Focus(), s.selection.value);
            var hi := Upper(s.Focus(), s.selection.value);
            0 <= lo <= hi < |c| && Copy(s).value == s.(clipboard := c[lo..hi + 1])
  {
    var c := IndexAt(s.db, s.CurrentIndexID()).value;
    var lo := Lower(s.Focus(), s.selection.value);
    var hi := Upper(s.Focus(), s.selection.value);
    assert Copy(s).value.clipboard == c[lo..hi + 1];
  }

  /** Pasting `items` as the clipboard of an in-bounds state: success
      exactly when their opposite link indices exist, and then the items sit
      right after the focused card. */
  lemma PasteClipboard(s: State, items: seq<ID>)
    requires FocusInBounds(s)
    ensures Paste(s.(clipboard := items)).Ok? <==> BackLinksPresent(s.db, s.CurrentIndexID(), items)
    ensures Paste(s.(clipboard := items)).Ok? ==>
              var c := IndexAt(s.db, s.CurrentIndexID()).value;
              IndexAt(Paste(s.(clipboard := items)).value.db, s.CurrentIndexID()) ==
                Some(c[..s.Focus() + 1] + items + c[s.Focus() + 1..])
  {
    var s1 := s.(clipboard := items);
    assert s1.db == s.db && s1.CurrentIndexID() == s.CurrentIndexID() && s1.Focus() == s.Focus();
    assert FocusInBounds(s1);
  }

  /** Copying a selection and pasting puts a copy of the range right after
      the focused card; with the focus at the lower end of the range, the
      copy lands right after its first card. With no anchor nothing is
      copied, so nothing is pasted. The paste succeeds exactly when every
      copied card's opposite link index exists, which in a plain index
      always holds. */
  lemma CopyThenPaste(s: State)
    requires s.mode == Selecting && FocusInBounds(s) && Copy(s).Ok?
    ensures var c := IndexAt(s.db, s.CurrentIndexID()).value;
            var f := s.Focus();
            var copied := if s.selection.Some?
                          then c[Lower(f, s.selection.value)..Upper(f, s.selection.value) + 1]
                          else [];
            Paste(Copy(s).value).Ok? <==> BackLinksPresent(s.db, s.CurrentIndexID(), copied)
    ensures Paste(Copy(s).value).Ok? ==>
              var c := IndexAt(s.db, s.CurrentIndexID()).value;
              var f := s.Focus();
              var copied := if s.selection.Some?
                            then c[Lower(f, s.selection.value)..Upper(f, s.selection.value) + 1]
                            else [];
              IndexAt(Paste(Copy(s).value).value.db, s.CurrentIndexID()) ==
                Some(c[..f + 1] + copied + c[f + 1..])
  {
    var c := IndexAt(s.db, s.CurrentIndexID()).value;
    var f := s.Focus();
    var copied := if s.selection.Some?
                  then c[Lower(f, s.selection.value)..Upper(f, s.selection.value) + 1]
                  else [];
    if s.selection.Some? {
      CopiedRange(s);
    }
    PasteClipboard(s, copied);
  }
}

=== FILE: note_view.dfy ===
/** What the card components show: the preview text of `NotePreview`, and
    the focus, highlight and editor decisions of `Note`. */
module NoteView {
  import opened Options
  import opened Strings
  import opened Cards
  import opened Model

  /** Notes with more words than this are cut in the preview. */
  const PreviewWords := 20

  const IndexPrefix := "Index: ("
  const IndexSuffix := " cards)"

  /** The label of an index card: its number of entries in decimal. */
  function IndexLabel(n: nat): string {
    IndexPrefix + NatToString(n) + IndexSuffix
  }

  /** `NotePreview`: an index shows its size; a note shows its first twenty
      space-separated words followed by `...` when it has more, and its whole
      text otherwise. */
  function Preview(card: Card): (r: string)
    ensures card.Note? && Occurrences(card.text, ' ') < PreviewWords ==> r == card.text
    ensures card.Note? && Occurrences(card.text, ' ') >= PreviewWords ==>
              |r| >= 3 && r[|r| - 3..] == "..."
    ensures card.Index? ==> r == IndexLabel(|card.contents|)
  {
    match card
    case Index(contents) => IndexLabel(|contents|)
    case Note(text) =>
      var words := Split(text, ' ');
      if |words| > PreviewWords then Join(words[..PreviewWords], ' ') + "..." else text
  }

  /** The label of an index holds exactly its number of entries. */
  lemma IndexPreviewCount(contents: seq<ID>)
    ensures var l := Preview(Index(contents));
            |l| > |IndexPrefix| + |IndexSuffix| &&
            l[..|IndexPrefix|] == IndexPrefix && l[|l| - |IndexSuffix|..] == IndexSuffix &&
            (forall i :: |IndexPrefix| <= i < |l| - |IndexSuffix| ==> IsDigit(l[i])) &&
            DecimalValue(l[|IndexPrefix|..|l| - |IndexSuffix|]) == |contents|
  {
    var d := NatToString(|contents|);
    var l := IndexPrefix + d + IndexSuffix;
    assert l[|IndexPrefix|..|l| - |IndexSuffix|] == d;
    NatToStringValue(|contents|);
  }

  /** A note with at most twenty words is shown whole. */
  lemma ShortNoteShownWhole(text: string)
    requires Occurrences(text, ' ') < PreviewWords
    ensures Preview(Note(text)) == text
  {
  }

  /** A proper prefix of a word list joins to a prefix of the whole that
      stops just before a separator. */
  lemma JoinPrefix(words: seq<string>, n: nat, sep: char) returns (k: nat)
    requires 0 < n < |words|
    ensures k < |Join(words, sep)| && Join(words, sep)[k] == sep
    ensures Join(words, sep)[..k] == Join(words[..n], sep)
  {
    var head, tail := words[..n], words[n..];
    assert words == head + tail;
    JoinAppend(head, tail, sep);
    k := |Join(head, sep)|;
    assert Join(words, sep) == Join(head, sep) + [sep] + Join(tail, sep);
  }

  /** A note with more than twenty words is shown up to, not including, its
      twentieth space, followed by `...`. */
  lemma LongNoteCut(text: string) returns (k: nat)
    requires Occurrences(text, ' ') >= PreviewWords
    ensures k < |text| && text[k] == ' '
    ensures Occurrences(text[..k], ' ') == PreviewWords - 1
    ensures Preview(Note(text)) == text[..k] + "..."
  {
    var words := Split(text, ' ');
    JoinSplit(text, ' ');
    k := JoinPrefix(words, PreviewWords, ' ');
    assert text[..k] == Join(words[..PreviewWords], ' ');
    SplitJoin(words[..PreviewWords], ' ');
  }

  // -------------------------------------------------------------------
  // The `Note` component

  /** `isSelected`: highlighted while selecting when the position lies
      between the focus and the anchor, either way round. A missing anchor
      compares false. */
  function IsSelected(mode: Mode, focus: int, position: int, selection: Option<int>): (r: bool)
    ensures r <==> mode == Selecting && selection.Some? &&
                   Lower(focus, selection.value) <= position <= Upper(focus, selection.value)
  {
    mode == Selecting && selection.Some? &&
    ((focus <= position && position <= selection.value) ||
     (focus >= position && position >= selection.value))
  }

  /** `isFocused`: the card at `position` is the one the top breadcrumb
      points at. */
  function IsFocused(focus: int, position: int): (r: bool)
    ensures r <==> position == focus
  {
    focus == position
  }

  /** The focused card shows the editor only while editing; every other card
      shows the viewer. */
  function UsesEditor(mode: Mode, focus: int, position: int): (r: bool)
    ensures r ==> mode == Editing && position == focus
    ensures mode == Editing ==> (r <==> IsFocused(focus, position))
  {
    IsFocused(focus, position) && mode == Editing
  }

  /** At most one card is focused and at most one shows the editor: the
      focused one, while editing. It is never highlighted, and outside
      selecting mode nothing is. */
  lemma OneEditor(mode: Mode, focus: int, p: int, q: int, selection: Option<int>)
    ensures IsFocused(focus, p) && IsFocused(focus, q) ==> p == q
    ensures UsesEditor(mode, focus, p) && UsesEditor(mode, focus, q) ==> p == q
    ensures UsesEditor(mode, focus, p) <==> mode == Editing && p == focus
    ensures UsesEditor(mode, focus, p) ==> !IsSelected(mode, focus, p, selection)
    ensures mode != Selecting ==> !IsSelected(mode, focus, p, selection)
  {
  }

  /** While selecting, the focused card and the anchor card are highlighted. */
  lemma EndsHighlighted(focus: int, anchor: int)
    ensures IsSelected(Selecting, focus, focus, Some(anchor))
    ensures IsSelected(Selecting, focus, anchor, Some(anchor))
  {
  }

  /** Copying while selecting puts exactly the highlighted cards on the
      clipboard, in index order; with no anchor nothing is highlighted and
      nothing is copied. */
  lemma HighlightedAreCopied(s: State)
    requires s.mode == Selecting && Copy(s).Ok?
    ensures s.selection.None? ==>
              Copy(s).value.clipboard == [] &&
              forall p :: !IsSelected(s.mode, s.Focus(), p, s.selection)
    ensures s.selection.Some? ==>
            var c := IndexAt(s.db, s.CurrentIndexID()).value;
            var clip := Copy(s).value.clipboard;
            var lo := Lower(s.Focus(), s.selection.value);
            0 <= lo && lo + |clip| <= |c| &&
            (forall p :: 0 <= p < |c| ==>
               (IsSelected(s.mode, s.Focus(), p, s.selection) <==> lo <= p < lo + |clip|)) &&
            (forall p :: lo <= p < lo + |clip| ==> clip[p - lo] == c[p])
  {
    if s.selection.Some? {
      var c := IndexAt(s.db, s.CurrentIndexID()).value;
      var clip := Copy(s).value.clipboard;
      var lo := Lower(s.Focus(), s.selection.value);
      var hi := Upper(s.Focus(), s.selection.value);
      assert |clip| == hi - lo + 1;
      forall p | lo <= p < lo + |clip| ensures clip[p - lo] == c[p] {
        assert clip[p - lo] == c[lo + (p - lo)];
      }
    }
  }

  /** Removing an in-range selection of the current index `c` succeeds,
      removes exactly the highlighted cards and keeps the rest in order. */
  lemma HighlightedAreDeleted(s: State, c: seq<ID>)
    requires s.mode == Selecting && s.selection.Some?
    requires IndexAt(s.db, s.CurrentIndexID()) == Some(c)
    requires 0 <= Lower(s.Focus(), s.selection.value) && Upper(s.Focus(), s.selection.value) < |c|
    ensures DeleteSelection(s).Ok?
    ensures forall p :: 0 <= p < |c| ==>
              (IsSelected(s.mode, s.Focus(), p, s.selection) <==>
                 Lower(s.Focus(), s.selection.value) <= p <= Upper(s.Focus(), s.selection.value))
    ensures var lo := Lower(s.Focus(), s.selection.value);
            var hi := Upper(s.Focus(), s.selection.value);
            var rest := IndexAt(DeleteSelection(s).value.db, s.CurrentIndexID()).value;
            |rest| == |c| - (hi - lo + 1) &&
            forall p :: 0 <= p < |c| && !IsSelected(s.mode, s.Focus(), p, s.selection) ==>
              rest[if p < lo then p else p - (hi - lo + 1)] == c[p]
  {
    var lo := Lower(s.Focus(), s.selection.value);
    var hi := Upper(s.Focus(), s.selection.value);
    var rest := c[..lo] + c[hi + 1..];
    assert IndexAt(DeleteSelection(s).value.db, s.CurrentIndexID()) == Some(rest);
    UnselectedKept(s, c, rest);
  }

  /** Cutting the highlighted range out of `c` keeps every card that is not
      highlighted. */
  lemma UnselectedKept(s: State, c: seq<ID>, rest: seq<ID>)
    requires s.mode == Selecting && s.selection.Some?
    requires 0 <= Lower(s.Focus(), s.selection.value) && Upper(s.Focus(), s.selection.value) < |c|
    requires rest == c[..Lower(s.Focus(), s.selection.value)] + c[Upper(s.Focus(), s.selection.value) + 1..]
    ensures forall p :: 0 <= p < |c| ==>
              (IsSelected(s.mode, s.Focus(), p, s.selection) <==>
                 Lower(s.Focus(), s.selection.value) <= p <= Upper(s.Focus(), s.selection.value))
    ensures var lo := Lower(s.Focus(), s.selection.value);
            var hi := Upper(s.Focus(), s.selection.value);
            |rest| == |c| - (hi - lo + 1) &&
            forall p :: 0 <= p < |c| && !IsSelected(s.mode, s.Focus(), p, s.selection) ==>
              rest[if p < lo then p else p - (hi - lo + 1)] == c[p]
  {
    var lo := Lower(s.Focus(), s.selection.value);
    var hi := Upper(s.Focus(), s.selection.value);
    CutKeepsRest(c, rest, lo, hi);
    forall p | 0 <= p < |c| && !IsSelected(s.mode, s.Focus(), p, s.selection)
      ensures rest[if p < lo then p else p - (hi - lo + 1)] == c[p]
    {
      assert !(lo <= p <= hi);
    }
  }

  /** Cutting out `c[lo..hi + 1]` keeps every other element, shifted left
      by the length of the cut when it lay after it. */
  lemma CutKeepsRest<T>(c: seq<T>, rest: seq<T>, lo: int, hi: int)
    requires 0 <= lo <= hi < |c| && rest == c[..lo] + c[hi + 1..]
    ensures |rest| == |c| - (hi - lo + 1)
    ensures forall p :: 0 <= p < |c| && !(lo <= p <= hi) ==>
              rest[if p < lo then p else p - (hi - lo + 1)] == c[p]
  {
  }

}

=== FILE: options.dfy ===
/** The optional value used wherever the application has `undefined`/`null`
    or a lookup that may find nothing. */
module Options {

  datatype Option<+T> = None | Some(value: T)
}

=== FILE: query_string.dfy ===
/** `parseQueryString` of `src/cloud.ts`: turns the fragment of the OAuth
    redirect URL into a key/value object. `decodeURIComponent` is a parameter
    `decode` that returns `None` where the real function throws. */
module QueryString {
  import opened Options
  import opened Strings

  /** A parsed value: a key seen once maps to its value, a key seen again is
      promoted to the list of all its values. `None` is the source's `null`,
      a parameter without `=`. */
  datatype Value = Single(v: Option<string>) | Multi(vs: seq<Option<string>>)

  type Params = map<string, Value>

  /** One decoded `key[=value]` parameter. */
  datatype Pair = Pair(key: string, value: Option<string>)

  /** Removes one leading `?`, `#` or `&`. */
  function StripLead(s: string): (r: string)
    ensures |s| > 0 && s[0] in {'?', '#', '&'} ==> r == s[1..]
    ensures !(|s| > 0 && s[0] in {'?', '#', '&'}) ==> r == s
  {
    if |s| > 0 && s[0] in {'?', '#', '&'} then s[1..] else s
  }

  /** Every `+` becomes a space. */
  function PlusToSpace(s: string): (r: string)
    ensures |r| == |s| && '+' !in r
    ensures forall i :: 0 <= i < |s| && s[i] != '+' ==> r[i] == s[i]
    ensures forall i :: 0 <= i < |s| && s[i] == '+' ==> r[i] == ' '
  {
    if s == [] then [] else [if s[0] == '+' then ' ' else s[0]] + PlusToSpace(s[1..])
  }

  /** The raw parameters of a query string: none for an input that is empty
      after trimming and stripping, otherwise its `&`-separated pieces. */
  function RawParams(str: string): (params: seq<string>)
    ensures StripLead(Trim(str)) == [] ==> params == []
    ensures StripLead(Trim(str)) != [] ==> Join(params, '&') == StripLead(Trim(str))
    ensures forall i :: 0 <= i < |params| ==> '&' !in params[i]
  {
    var t := StripLead(Trim(str));
    if t == [] then []
    else
      JoinSplit(t, '&');
      Split(t, '&')
  }

  /** The key is everything before the first `=`; the value is everything
      after it, later `=` included, or `None` when there is no `=`. */
  function RawPair(param: string): (p: Pair)
    ensures '=' !in param ==> p == Pair(param, None)
    ensures '=' in param ==> '=' !in p.key && p.value.Some? && param == p.key + ['='] + p.value.value
  {
    var parts := Split(param, '=');
    if |parts| > 1 then
      JoinSplit(param, '=');
      JoinCons(parts[0], parts[1..], '=');
      assert parts == [parts[0]] + parts[1..];
      Pair(parts[0], Some(Join(parts[1..], '=')))
    else
      JoinSplit(param, '=');
      assert param == parts[0];
      Pair(parts[0], None)
  }

  /** Decodes one raw parameter, key first; fails when either part fails. */
  function DecodeParam(param: string, decode: string -> Option<string>): (r: Option<Pair>)
    ensures r.Some? <==> decode(RawPair(PlusToSpace(param)).key).Some? &&
                         (RawPair(PlusToSpace(param)).value.Some? ==>
                            decode(RawPair(PlusToSpace(param)).value.value).Some?)
  {
    var raw := RawPair(PlusToSpace(param));
    match decode(raw.key)
    case None => None
    case Some(key) =>
      if raw.value.None? then Some(Pair(key, None))
      else
        match decode(raw.value.value)
        case None => None
        case Some(value) => Some(Pair(key, Some(value)))
  }

  /** Records one more value for `key`. */
  function Accumulate(ret: Params, key: string, value: Option<string>): (r: Params)
    ensures r.Keys == ret.Keys + {key}
    ensures forall k :: k in ret && k != key ==> r[k] == ret[k]
  {
    if key !in ret then ret[key := Single(value)]
    else match ret[key]
      case Multi(vs) => ret[key := Multi(vs + [value])]
      case Single(v) => ret[key := Multi([v, value])]
  }

  function ParseParams(params: seq<string>, decode: string -> Option<string>, ret: Params): Option<Params>
    decreases |params|
  {
    if params == [] then Some(ret)
    else match DecodeParam(params[0], decode)
      case None => None
      case Some(p) => ParseParams(params[1..], decode, Accumulate(ret, p.key, p.value))
  }

  /** `parseQueryString(str)`; `None` where `decodeURIComponent` would throw. */
  function Parse(str: string, decode: string -> Option<string>): (r: Option<Params>)
    ensures r.Some? <==> DecodeAll(RawParams(str), decode).Some?
    ensures StripLead(Trim(str)) == [] ==> r == Some(map[])
  {
    ParseParamsDefined(RawParams(str), decode, map[]);
    ParseParams(RawParams(str), decode, map[])
  }

  // -------------------------------------------------------------------
  // Reference: the list of values of each key, in order

  function DecodeAll(params: seq<string>, decode: string -> Option<string>): Option<seq<Pair>> {
    if params == [] then Some([])
    else match (DecodeParam(params[0], decode), DecodeAll(params[1..], decode))
      case (Some(p), Some(rest)) => Some([p] + rest)
      case _ => None
  }

  /** The values given for `key`, in order of appearance. */
  function ValuesFor(pairs: seq<Pair>, key: string): seq<Option<string>> {
    if pairs == [] then []
    else (if pairs[0].key == key then [pairs[0].value] else []) + ValuesFor(pairs[1..], key)
  }

  /** The values a parsed entry holds. */
  function Values(ret: Params, key: string): seq<Option<string>> {
    if key !in ret then []
    else match ret[key]
      case Single(v) => [v]
      case Multi(vs) => vs
  }

  /** Lists are only ever built from two values upwards. */
  ghost predicate WellFormed(ret: Params) {
    forall k :: k in ret && ret[k].Multi? ==> |ret[k].vs| >= 2
  }

  lemma AccumulateValues(ret: Params, key: string, value: Option<string>)
    requires WellFormed(ret)
    ensures WellFormed(Accumulate(ret, key, value))
    ensures Values(Accumulate(ret, key, value), key) == Values(ret, key) + [value]
    ensures forall k :: k != key ==> Values(Accumulate(ret, key, value), k) == Values(ret, k)
  {
  }

  /** The loop fails exactly when some parameter does not decode. */
  lemma {:induction false} ParseParamsDefined(params: seq<string>, decode: string -> Option<string>, ret: Params)
    ensures ParseParams(params, decode, ret).Some? <==> DecodeAll(params, decode).Some?
    decreases |params|
  {
    if params != [] {
      match DecodeParam(params[0], decode)
      case None =>
      case Some(p) =>
        ParseParamsDefined(params[1..], decode, Accumulate(ret, p.key, p.value));
    }
  }

  lemma ValuesForCons(p: Pair, rest: seq<Pair>, k: string)
    ensures ValuesFor([p] + rest, k) == (if p.key == k then [p.value] else []) + ValuesFor(rest, k)
  {
    assert ([p] + rest)[1..] == rest;
  }

  /** The loop appends each key's values, in order, to what `ret` held. */
  lemma {:induction false} ParseParamsValues(params: seq<string>, decode: string -> Option<string>, ret: Params)
    requires WellFormed(ret)
    requires ParseParams(params, decode, ret).Some?
    ensures DecodeAll(params, decode).Some?
    ensures var r := ParseParams(params, decode, ret).value;
            WellFormed(r) && r.Keys >= ret.Keys &&
            forall k :: Values(r, k) == Values(ret, k) + ValuesFor(DecodeAll(params, decode).value, k)
    decreases |params|
  {
    ParseParamsDefined(params, decode, ret);
    if params != [] {
      var p := DecodeParam(params[0], decode).value;
      var ret' := Accumulate(ret, p.key, p.value);
      AccumulateValues(ret, p.key, p.value);
      assert ParseParams(params, decode, ret) == ParseParams(params[1..], decode, ret');
      ParseParamsValues(params[1..], decode, ret');
      var rest := DecodeAll(params[1..], decode).value;
      assert DecodeAll(params, decode) == Some([p] + rest);
      forall k ensures ValuesFor(DecodeAll(params, decode).value, k) ==
                       (if p.key == k then [p.value] else []) + ValuesFor(rest, k) {
        ValuesForCons(p, rest, k);
      }
    }
  }

  lemma ValuesEmpty(ret: Params, key: string)
    requires WellFormed(ret)
    ensures key in ret <==> Values(ret, key) != []
    ensures key in ret ==> (ret[key].Multi? <==> |Values(ret, key)| >= 2)
  {
  }

  /** A key is present exactly when some parameter gives it; it holds a
      single value when given once and the list of all values, in order,
      when given more often. Parsing fails exactly when some part does not
      decode. */
  lemma ParseMatchesReference(str: string, decode: string -> Option<string>)
    ensures Parse(str, decode).Some? <==> DecodeAll(RawParams(str), decode).Some?
    ensures Parse(str, decode).Some? ==>
              var r := Parse(str, decode).value;
              var pairs := DecodeAll(RawParams(str), decode).value;
              forall k ::
                (k in r <==> ValuesFor(pairs, k) != []) &&
                (k in r ==> Values(r, k) == ValuesFor(pairs, k) &&
                            (r[k].Multi? <==> |ValuesFor(pairs, k)| >= 2))
  {
    ParseParamsDefined(RawParams(str), decode, map[]);
    if Parse(str, decode).Some? {
      ParseParamsValues(RawParams(str), decode, map[]);
      var r := Parse(str, decode).value;
      forall k ensures k in r <==> Values(r, k) != []
        ensures k in r ==> (r[k].Multi? <==> |Values(r, k)| >= 2) {
        ValuesEmpty(r, k);
      }
    }
  }

  /** An input that is empty once trimmed and stripped yields no keys. */
  lemma EmptyInput(str: string, decode: string -> Option<string>)
    requires StripLead(Trim(str)) == []
    ensures Parse(str, decode) == Some(map[])
  {
  }

  /** `p` is `param` with `+` made a space, cut at its first `=`, and its key
      and value (if any) each passed through the decoder once. */
  predicate DecodedOnce(param: string, p: Pair, decode: string -> Option<string>) {
    var raw := RawPair(PlusToSpace(param));
    && decode(raw.key) == Some(p.key)
    && (raw.value.None? <==> p.value.None?)
    && (raw.value.Some? ==> decode(raw.value.value) == p.value)
  }

  /** Key and value are each decoded exactly once. */
  lemma DecodeParamOnce(param: string, decode: string -> Option<string>)
    requires DecodeParam(param, decode).Some?
    ensures DecodedOnce(param, DecodeParam(param, decode).value, decode)
  {
  }

  /** Decoding the whole list decodes each parameter on its own, in order. */
  lemma {:induction false} DecodeAllOnce(params: seq<string>, decode: string -> Option<string>)
    requires DecodeAll(params, decode).Some?
    ensures |DecodeAll(params, decode).value| == |params|
    ensures forall i :: 0 <= i < |params| ==>
              DecodeParam(params[i], decode) == Some(DecodeAll(params, decode).value[i])
    decreases |params|
  {
    if params != [] {
      DecodeAllOnce(params[1..], decode);
      var rest := DecodeAll(params[1..], decode).value;
      var pairs := DecodeAll(params, decode).value;
      assert pairs == [DecodeParam(params[0], decode).value] + rest;
      forall i | 1 <= i < |params|
        ensures DecodeParam(params[i], decode) == Some(pairs[i])
      {
        assert params[i] == params[1..][i - 1] && pairs[i] == rest[i - 1];
      }
    }
  }

  /** With a decoder that never fails, parsing never fails. */
  lemma {:induction false} TotalDecodeParses(params: seq<string>, decode: string -> Option<string>)
    requires forall s :: decode(s).Some?
    ensures DecodeAll(params, decode).Some?
    decreases |params|
  {
    if params != [] {
      TotalDecodeParses(params[1..], decode);
    }
  }

  /** A value keeps every `=` after the first one. */
  lemma ValueKeepsEquals(key: string, value: string)
    requires '=' !in key
    ensures RawPair(key + ['='] + value) == Pair(key, Some(value))
  {
    var param := key + ['='] + value;
    assert param[|key|] == '=';
    var p := RawPair(param);
    assert p.key + ['='] + p.value.value == key + ['='] + value;
    assert p.key == param[..|p.key|] == key;
    assert p.value.value == param[|key| + 1..] == value;
  }

  lemma PlusFree(s: string)
    requires '+' !in s
    ensures PlusToSpace(s) == s
  {
  }

  lemma TrimNothing(s: string)
    requires |s| > 0 && !IsJsWhitespace(s[0]) && !IsJsWhitespace(s[|s| - 1])
    ensures Trim(s) == s
  {
  }

  function Identity(s: string): Option<string> {
    Some(s)
  }

  /** Without `+` and with the identity decoder, a parameter parses to its
      raw pair. */
  lemma DecodePlain(param: string)
    requires '+' !in param
    ensures DecodeParam(param, Identity) == Some(RawPair(param))
  {
    PlusFree(param);
  }

  /** Characters a query-string key or value may hold for the lemmas below
      to read it back unchanged. */
  predicate PlainText(s: string) {
    '+' !in s && '&' !in s
  }

  lemma ParamsOf(params: seq<string>, s: string)
    requires |params| > 0 && forall i :: 0 <= i < |params| ==> '&' !in params[i]
    requires Join(params, '&') == s
    requires |s| > 0 && !IsJsWhitespace(s[0]) && !IsJsWhitespace(s[|s| - 1]) && s[0] !in {'?', '#', '&'}
    ensures RawParams(s) == params
  {
    TrimNothing(s);
    assert StripLead(Trim(s)) == s;
    SplitJoin(params, '&');
  }

  lemma OneLeadParams(key: string)
    requires PlainText(key) && |key| > 0 && !IsJsWhitespace(key[|key| - 1])
    ensures RawParams(['?', '?'] + key) == [['?'] + key]
  {
    var k := ['?'] + key;
    var s := ['?'] + k;
    assert s == ['?', '?'] + key;
    assert s[0] == '?' && s[|s| - 1] == key[|key| - 1];
    TrimNothing(s);
    assert StripLead(s) == k;
    assert '&' !in k;
  }

  /** Only one leading `?` is removed: `??key` yields the key `?key` with
      no value. */
  lemma OnlyOneLeadStripped(key: string)
    requires PlainText(key) && '=' !in key
    requires |key| > 0 && !IsJsWhitespace(key[|key| - 1])
    ensures Parse(['?', '?'] + key, Identity) == Some(map[['?'] + key := Single(None)])
  {
    var k := ['?'] + key;
    OneLeadParams(key);
    assert '+' !in k && '=' !in k;
    DecodePlain(k);
    SingleParam(k, Identity, Pair(k, None));
  }

  /** A single parameter yields a single entry. */
  lemma SingleParam(param: string, decode: string -> Option<string>, p: Pair)
    requires DecodeParam(param, decode) == Some(p)
    ensures ParseParams([param], decode, map[]) == Some(map[p.key := Single(p.value)])
  {
    ParseStep([param], decode, map[], p);
    assert [param][1..] == [];
  }

  lemma KeyWithValue(key: string, value: string)
    requires PlainText(key) && PlainText(value) && '=' !in key
    ensures DecodeParam(key + ['='] + value, Identity) == Some(Pair(key, Some(value)))
  {
    DecodePlain(key + ['='] + value);
    ValueKeepsEquals(key, value);
  }

  /** A key given three times, the second time without `=`, collects its
      values in order, `null` in the middle; a value may itself hold `=`. */
  lemma RepeatedKey(key: string, v1: string, v2: string)
    requires PlainText(key) && PlainText(v1) && PlainText(v2) && '=' !in key
    requires |key| > 0 && !IsJsWhitespace(key[0]) && key[0] !in {'?', '#'}
    requires |v2| > 0 && !IsJsWhitespace(v2[|v2| - 1])
    ensures Parse(key + ['='] + v1 + ['&'] + key + ['&'] + key + ['='] + v2, Identity)
            == Some(map[key := Multi([Some(v1), None, Some(v2)])])
  {
    var p1, p3 := key + ['='] + v1, key + ['='] + v2;
    var params := [p1, key, p3];
    RepeatedKeyParams(key, v1, v2);
    RepeatedKeyTail(key, v1, v2);
    KeyWithValue(key, v1);
    AccumulateThree(key, v1, v2);
    assert params[1..] == [key, p3];
    ParseStep(params, Identity, map[], Pair(key, Some(v1)));
  }

  lemma RepeatedKeyParams(key: string, v1: string, v2: string)
    requires PlainText(key) && PlainText(v1) && PlainText(v2)
    requires |key| > 0 && !IsJsWhitespace(key[0]) && key[0] !in {'?', '#'}
    requires |v2| > 0 && !IsJsWhitespace(v2[|v2| - 1])
    ensures RawParams(key + ['='] + v1 + ['&'] + key + ['&'] + key + ['='] + v2)
            == [key + ['='] + v1, key, key + ['='] + v2]
  {
    var p1, p3 := key + ['='] + v1, key + ['='] + v2;
    var s := key + ['='] + v1 + ['&'] + key + ['&'] + key + ['='] + v2;
    var params := [p1, key, p3];
    assert params[1..] == [key, p3] && params[1..][1..] == [p3];
    assert Join([p3], '&') == p3;
    assert Join([key, p3], '&') == key + ['&'] + p3;
    assert Join(params, '&') == p1 + ['&'] + (key + ['&'] + p3);
    assert Join(params, '&') == s;
    assert s[0] == key[0] && s[|s| - 1] == v2[|v2| - 1];
    assert '&' !in p1 && '&' !in p3;
    ParamsOf(params, s);
  }

  lemma RepeatedKeyTail(key: string, v1: string, v2: string)
    requires PlainText(key) && PlainText(v2) && '=' !in key
    ensures ParseParams([key, key + ['='] + v2], Identity, map[key := Single(Some(v1))])
            == Some(map[key := Multi([Some(v1), None, Some(v2)])])
  {
    var p3 := key + ['='] + v2;
    RepeatedKeyLast(key, v1, v2);
    AccumulateThree(key, v1, v2);
    DecodePlain(key);
    assert [key, p3][1..] == [p3];
    ParseStep([key, p3], Identity, map[key := Single(Some(v1))], Pair(key, None));
  }

  lemma RepeatedKeyLast(key: string, v1: string, v2: string)
    requires PlainText(key) && PlainText(v2) && '=' !in key
    ensures ParseParams([key + ['='] + v2], Identity, map[key := Multi([Some(v1), None])])
            == Some(map[key := Multi([Some(v1), None, Some(v2)])])
  {
    var p3 := key + ['='] + v2;
    KeyWithValue(key, v2);
    AccumulateThree(key, v1, v2);
    assert [p3][1..] == [];
    ParseStep([p3], Identity, map[key := Multi([Some(v1), None])], Pair(key, Some(v2)));
  }

  lemma AccumulateThree(key: string, v1: string, v2: string)
    ensures Accumulate(map[], key, Some(v1)) == map[key := Single(Some(v1))]
    ensures Accumulate(map[key := Single(Some(v1))], key, None) == map[key := Multi([Some(v1), None])]
    ensures Accumulate(map[key := Multi([Some(v1), None])], key, Some(v2))
            == map[key := Multi([Some(v1), None, Some(v2)])]
  {
    assert [Some(v1), None] + [Some(v2)] == [Some(v1), None, Some(v2)];
  }

  /** One step of the parameter loop. */
  lemma ParseStep(params: seq<string>, decode: string -> Option<string>, ret: Params, p: Pair)
    requires params != [] && DecodeParam(params[0], decode) == Some(p)
    ensures ParseParams(params, decode, ret) == ParseParams(params[1..], decode, Accumulate(ret, p.key, p.value))
  {
  }
}

=== FILE: search.dfy ===
/** `src/search.ts`: term counting and the inverted index's posting updates.
    The tokenizer (contraction expansion followed by Porter tokenize-and-stem)
    is a library the model cannot see, so it is a parameter. */
module Search {
  import opened Options

  type ID = string

  /** Token to number of occurrences. */
  type WordVector = map<string, nat>

  /** Token to (card to weight). */
  type SearchIndex = map<string, map<ID, nat>>

  /** The reference count map: every distinct token with its multiplicity. */
  function Counts(tokens: seq<string>): WordVector {
    map t | t in multiset(tokens) :: multiset(tokens)[t]
  }

  /** `getFeatures(text)`: counts the tokens one by one, starting each new
      token at 1 and incrementing it on every later occurrence. */
  method GetFeatures(text: string, tokenize: string -> seq<string>) returns (vec: WordVector)
    ensures vec.Keys == set t | t in tokenize(text)
    ensures forall t :: t in vec ==> vec[t] == multiset(tokenize(text))[t]
    ensures vec == Counts(tokenize(text))
  {
    var tokens := tokenize(text);
    vec := map[];
    var i := 0;
    while i < |tokens|
      invariant 0 <= i <= |tokens|
      invariant vec.Keys == set t | t in tokens[..i]
      invariant forall t :: t in vec ==> vec[t] == multiset(tokens[..i])[t]
    {
      var token := tokens[i];
      assert tokens[..i + 1] == tokens[..i] + [token];
      vec := vec[token := if token !in vec then 1 else vec[token] + 1];
      i := i + 1;
    }
    assert tokens[..i] == tokens;
  }

  // -------------------------------------------------------------------
  // The counts add up to the number of tokens

  ghost function Pick(m: WordVector): string
    requires m != map[]
  {
    var k :| k in m; k
  }

  /** Sum of all counts in `m`. */
  ghost function Total(m: WordVector): nat
    decreases |m.Keys|
  {
    if m == map[] then 0
    else
      var k := Pick(m);
      assert (m - {k}).Keys == m.Keys - {k};
      m[k] + Total(m - {k})
  }

  /** The sum does not depend on which key is taken first. */
  lemma {:induction false} TotalRemove(m: WordVector, k: string)
    requires k in m
    ensures Total(m) == m[k] + Total(m - {k})
    decreases |m.Keys|
  {
    var p := Pick(m);
    if p != k {
      assert (m - {p}).Keys == m.Keys - {p};
      assert (m - {k}).Keys == m.Keys - {k};
      TotalRemove(m - {p}, k);
      TotalRemove(m - {k}, p);
      assert m - {p} - {k} == m - {k} - {p};
    }
  }

  lemma CountsSnoc(tokens: seq<string>, x: string)
    ensures Counts(tokens + [x]) == Counts(tokens)[x := multiset(tokens)[x] + 1]
  {
    assert multiset(tokens + [x]) == multiset(tokens) + multiset{x};
  }

  /** The counts of a token sequence sum to its length. */
  lemma {:induction false} CountsTotal(tokens: seq<string>)
    ensures Total(Counts(tokens)) == |tokens|
    decreases |tokens|
  {
    if |tokens| == 0 {
      assert Counts(tokens) == map[];
    } else {
      var init := tokens[..|tokens| - 1];
      var x := tokens[|tokens| - 1];
      assert tokens == init + [x];
      CountsSnoc(init, x);
      CountsTotal(init);
      var m := Counts(init);
      var m' := Counts(tokens);
      TotalRemove(m', x);
      assert m' - {x} == m - {x};
      if x in m {
        TotalRemove(m, x);
      } else {
        assert m - {x} == m;
      }
    }
  }

  // -------------------------------------------------------------------
  // Posting updates

  /** `addToIndex(id, vec, index)`: for every token of `vec`, sets the weight
      of `id` in that token's postings to the token's count, overwriting any
      earlier weight. Fails when a token has no postings yet, as the source
      does not create them. */
  function AddToIndex(id: ID, vec: WordVector, idx: SearchIndex): (r: Option<SearchIndex>)
    ensures r.Some? <==> vec.Keys <= idx.Keys
    ensures r.Some? ==> r.value.Keys == idx.Keys
    ensures r.Some? ==> forall t :: t in vec ==> id in r.value[t] && r.value[t][id] == vec[t]
    ensures r.Some? ==> forall t :: t in vec ==> r.value[t].Keys == idx[t].Keys + {id}
    ensures r.Some? ==> forall t, k :: t in vec && k in idx[t] && k != id ==> r.value[t][k] == idx[t][k]
    ensures r.Some? ==> forall t :: t in idx && t !in vec ==> r.value[t] == idx[t]
  {
    if vec.Keys <= idx.Keys then
      Some(map t | t in idx :: if t in vec then idx[t][id := vec[t]] else idx[t])
    else None
  }

  /** `removeFromIndex(id, vec, index)`: for every token of `vec`, deletes
      `id` from that token's postings (a no-op where it is absent). */
  function RemoveFromIndex(id: ID, vec: WordVector, idx: SearchIndex): (r: Option<SearchIndex>)
    ensures r.Some? <==> vec.Keys <= idx.Keys
    ensures r.Some? ==> r.value.Keys == idx.Keys
    ensures r.Some? ==> forall t :: t in vec ==> r.value[t].Keys == idx[t].Keys - {id}
    ensures r.Some? ==> forall t, k :: t in vec && k in idx[t] && k != id ==> r.value[t][k] == idx[t][k]
    ensures r.Some? ==> forall t :: t in idx && t !in vec ==> r.value[t] == idx[t]
  {
    if vec.Keys <= idx.Keys then
      Some(map t | t in idx :: if t in vec then idx[t] - {id} else idx[t])
    else None
  }

  /** Removing twice is removing once. */
  lemma RemoveIdempotent(id: ID, vec: WordVector, idx: SearchIndex)
    requires RemoveFromIndex(id, vec, idx).Some?
    ensures RemoveFromIndex(id, vec, RemoveFromIndex(id, vec, idx).value) == RemoveFromIndex(id, vec, idx)
  {
    var once := RemoveFromIndex(id, vec, idx).value;
    var twice := RemoveFromIndex(id, vec, once).value;
    forall t | t in once ensures twice[t] == once[t] {
      if t in vec {
        assert twice[t].Keys == once[t].Keys;
        assert forall k :: k in once[t] ==> twice[t][k] == once[t][k];
      }
    }
    assert twice == once;
  }

  /** Adding twice is adding once: re-indexing overwrites instead of
      accumulating. */
  lemma AddIdempotent(id: ID, vec: WordVector, idx: SearchIndex)
    requires AddToIndex(id, vec, idx).Some?
    ensures AddToIndex(id, vec, AddToIndex(id, vec, idx).value) == AddToIndex(id, vec, idx)
  {
    var once := AddToIndex(id, vec, idx).value;
    var twice := AddToIndex(id, vec, once).value;
    forall t | t in once ensures twice[t] == once[t] {
      if t in vec {
        assert twice[t].Keys == once[t].Keys;
        assert forall k :: k in once[t] ==> twice[t][k] == once[t][k];
      }
    }
    assert twice == once;
  }

  /** Indexing a card that was in no posting of `vec` and then removing it
      with the same vector restores the index. */
  lemma AddThenRemove(id: ID, vec: WordVector, idx: SearchIndex)
    requires AddToIndex(id, vec, idx).Some?
    requires forall t :: t in vec ==> id !in idx[t]
    ensures RemoveFromIndex(id, vec, AddToIndex(id, vec, idx).value) == Some(idx)
  {
    var added := AddToIndex(id, vec, idx).value;
    var back := RemoveFromIndex(id, vec, added).value;
    forall t | t in idx ensures back[t] == idx[t] {
      if t in vec {
        assert back[t].Keys == idx[t].Keys;
        assert forall k :: k in idx[t] ==> back[t][k] == idx[t][k];
      }
    }
    assert back == idx;
  }

  /** Re-indexing with a new vector leaves the card's weight under every
      token the new vector lacks: stale entries survive unless removed first. */
  lemma ReindexKeepsStale(id: ID, before: WordVector, after: WordVector, idx: SearchIndex, t: string)
    requires AddToIndex(id, before, idx).Some?
    requires AddToIndex(id, after, AddToIndex(id, before, idx).value).Some?
    requires t in before && t !in after
    ensures id in AddToIndex(id, after, AddToIndex(id, before, idx).value).value[t]
  {
  }
}

=== FILE: slate_codec.dfy ===
/** The plain-text codec of the note editor (`serialize` and `deserialize`,
    defined identically in `src/NoteEditor.tsx` and
    `src/components/NoteEditor.tsx`): a note's text is one paragraph per
    line of the editor's document. */
module SlateCodec {
  import opened Strings

  /** A Slate document node: a text leaf or an element with children. */
  datatype Node = Text(text: string) | Element(children: seq<Node>)

  /** `Node.string(n)`: the text of all leaves under `n`, in document order. */
  function NodeString(n: Node): string
    decreases n, 1
  {
    match n
    case Text(t) => t
    case Element(cs) => ChildrenString(cs, n)
  }

  function ChildrenString(cs: seq<Node>, ghost parent: Node): string
    requires forall i :: 0 <= i < |cs| ==> cs[i] < parent
    decreases parent, 0, |cs|
  {
    if cs == [] then "" else NodeString(cs[0]) + ChildrenString(cs[1..], parent)
  }

  /** The text leaves under `n`, in document order. */
  function Leaves(n: Node): seq<string>
    decreases n, 1
  {
    match n
    case Text(t) => [t]
    case Element(cs) => ChildrenLeaves(cs, n)
  }

  function ChildrenLeaves(cs: seq<Node>, ghost parent: Node): seq<string>
    requires forall i :: 0 <= i < |cs| ==> cs[i] < parent
    decreases parent, 0, |cs|
  {
    if cs == [] then [] else Leaves(cs[0]) + ChildrenLeaves(cs[1..], parent)
  }

  /** Concatenation of a sequence of strings. */
  function Concat(ss: seq<string>): string {
    if ss == [] then "" else ss[0] + Concat(ss[1..])
  }

  lemma {:induction false} ConcatAppend(a: seq<string>, b: seq<string>)
    ensures Concat(a + b) == Concat(a) + Concat(b)
    decreases |a|
  {
    if a == [] {
      assert a + b == b;
    } else {
      assert (a + b)[1..] == a[1..] + b;
      ConcatAppend(a[1..], b);
    }
  }

  /** A node's string is the concatenation of its leaves. */
  lemma {:induction false} NodeStringIsLeaves(n: Node)
    ensures NodeString(n) == Concat(Leaves(n))
    decreases n, 1
  {
    match n
    case Text(t) =>
      assert Concat([t]) == t + Concat([]);
    case Element(cs) =>
      ChildrenStringIsLeaves(cs, n);
  }

  lemma {:induction false} ChildrenStringIsLeaves(cs: seq<Node>, parent: Node)
    requires forall i :: 0 <= i < |cs| ==> cs[i] < parent
    ensures ChildrenString(cs, parent) == Concat(ChildrenLeaves(cs, parent))
    decreases parent, 0, |cs|
  {
    if cs != [] {
      NodeStringIsLeaves(cs[0]);
      ChildrenStringIsLeaves(cs[1..], parent);
      ConcatAppend(Leaves(cs[0]), ChildrenLeaves(cs[1..], parent));
    }
  }

  /** The string of each top-level node. */
  function Paragraphs(value: seq<Node>): (ps: seq<string>)
    ensures |ps| == |value|
    ensures forall i :: 0 <= i < |value| ==> ps[i] == NodeString(value[i])
  {
    if value == [] then [] else [NodeString(value[0])] + Paragraphs(value[1..])
  }

  /** Paragraphs of a concatenation are the paragraphs of each part. */
  lemma ParagraphsAppend(a: seq<Node>, b: seq<Node>)
    ensures Paragraphs(a + b) == Paragraphs(a) + Paragraphs(b)
  {
  }

  /** `serialize(value)`: the paragraphs' strings, joined by line breaks.
      Nothing for no paragraph, the paragraph's own string for one, and
      (`SerializeAppend`) one line break between the texts of any two
      non-empty parts: together these fix the result for every document. */
  function Serialize(value: seq<Node>): (r: string)
    ensures value == [] ==> r == ""
    ensures |value| == 1 ==> r == NodeString(value[0])
    ensures |value| > 0 && (forall i :: 0 <= i < |value| ==> '\n' !in NodeString(value[i])) ==>
              Split(r, '\n') == Paragraphs(value)
  {
    if |value| > 0 && (forall i :: 0 <= i < |value| ==> '\n' !in NodeString(value[i])) then
      SplitJoin(Paragraphs(value), '\n');
      Join(Paragraphs(value), '\n')
    else Join(Paragraphs(value), '\n')
  }

  /** Serializing a document split in two non-empty parts puts exactly one
      line break between the two parts' texts, whatever the paragraphs
      hold. */
  lemma SerializeAppend(a: seq<Node>, b: seq<Node>)
    requires |a| > 0 && |b| > 0
    ensures Serialize(a + b) == Serialize(a) + "\n" + Serialize(b)
  {
    ParagraphsAppend(a, b);
    JoinAppend(Paragraphs(a), Paragraphs(b), '\n');
  }

  /** A paragraph holding a single text leaf. */
  function Paragraph(line: string): Node {
    Element([Text(line)])
  }

  /** `deserialize(string)`: one single-leaf paragraph per line. */
  function Deserialize(s: string): (value: seq<Node>)
    ensures |value| == Occurrences(s, '\n') + 1
    ensures forall i :: 0 <= i < |value| ==>
              value[i].Element? && |value[i].children| == 1 && value[i].children[0].Text? &&
              '\n' !in value[i].children[0].text
  {
    var lines := Split(s, '\n');
    seq(|lines|, i requires 0 <= i < |lines| => Paragraph(lines[i]))
  }

  lemma ParagraphString(line: string)
    ensures NodeString(Paragraph(line)) == line
  {
    var n := Paragraph(line);
    assert [Text(line)][1..] == [];
    assert ChildrenString([Text(line)], n) == line + ChildrenString([], n);
  }

  /** Decoding then encoding gives back the text, whatever it is. */
  lemma SerializeDeserialize(s: string)
    ensures Serialize(Deserialize(s)) == s
  {
    var lines := Split(s, '\n');
    var value := Deserialize(s);
    forall i | 0 <= i < |lines| ensures Paragraphs(value)[i] == lines[i] {
      ParagraphString(lines[i]);
    }
    assert Paragraphs(value) == lines;
    JoinSplit(s, '\n');
  }

  /** Encoding then decoding gives back a document whose paragraphs hold one
      leaf each, provided there is at least one paragraph and no paragraph
      string holds a line break; the leaves of each paragraph are merged. */
  lemma DeserializeSerialize(value: seq<Node>)
    requires |value| > 0
    requires forall i :: 0 <= i < |value| ==> '\n' !in NodeString(value[i])
    ensures Deserialize(Serialize(value)) ==
              seq(|value|, i requires 0 <= i < |value| => Paragraph(NodeString(value[i])))
  {
    SplitJoin(Paragraphs(value), '\n');
  }

  /** Documents already in the decoder's shape come back unchanged. */
  lemma PlainDocumentRoundTrip(lines: seq<string>)
    requires |lines| > 0
    requires forall i :: 0 <= i < |lines| ==> '\n' !in lines[i]
    ensures Deserialize(Serialize(seq(|lines|, i requires 0 <= i < |lines| => Paragraph(lines[i]))))
            == seq(|lines|, i requires 0 <= i < |lines| => Paragraph(lines[i]))
  {
    var value := seq(|lines|, i requires 0 <= i < |lines| => Paragraph(lines[i]));
    forall i | 0 <= i < |lines| ensures NodeString(value[i]) == lines[i] {
      ParagraphString(lines[i]);
    }
    DeserializeSerialize(value);
  }

  /** The empty document does not survive: it comes back as one empty
      paragraph. */
  lemma EmptyDocumentNotRestored()
    ensures Serialize([]) == ""
    ensures Deserialize("") == [Paragraph("")]
    ensures Deserialize(Serialize([])) == [Paragraph("")]
  {
    assert Serialize([]) == "";
    assert Split("", '\n') == [""];
  }

  /** A paragraph whose string holds a line break comes back as two. */
  lemma BreakInParagraphSplits(a: string, b: string)
    requires '\n' !in a && '\n' !in b
    ensures Deserialize(Serialize([Text(a + ['\n'] + b)])) == [Paragraph(a), Paragraph(b)]
  {
    assert Paragraphs([Text(a + ['\n'] + b)]) == [a + ['\n'] + b];
    assert Join([a, b], '\n') == a + ['\n'] + b;
    SplitJoin([a, b], '\n');
  }
}

=== FILE: strings.dfy ===
/** String helpers with the semantics of the JavaScript built-ins the
    application relies on: `String.prototype.split` and `Array.prototype.join`
    with a one-character separator, `String.prototype.trim`, `endsWith`, and
    decimal rendering of a count. */
module Strings {

  /** Number of occurrences of `c` in `s`. */
  function Occurrences(s: string, c: char): nat {
    multiset(s)[c]
  }

  /** Position of the first `c` in `s`. */
  function FirstIndex(s: string, c: char): (i: nat)
    requires c in s
    ensures i < |s| && s[i] == c && c !in s[..i]
  {
    if s[0] == c then 0
    else
      assert s[1..] == s[1..] && c in s[1..] by { assert s == [s[0]] + s[1..]; }
      var j := FirstIndex(s[1..], c);
      assert s[..j + 1] == [s[0]] + s[1..][..j];
      j + 1
  }

  /** `s.split(sep)` for a one-character separator: the maximal
      separator-free pieces, in order. Never empty: `"".split(sep)` is `[""]`. */
  function Split(s: string, sep: char): (parts: seq<string>)
    ensures |parts| == Occurrences(s, sep) + 1
    ensures forall i :: 0 <= i < |parts| ==> sep !in parts[i]
    decreases |s|
  {
    if sep !in s then [s]
    else
      var i := FirstIndex(s, sep);
      assert s == s[..i] + [sep] + s[i + 1..];
      assert multiset(s)[sep] == multiset(s[..i])[sep] + 1 + multiset(s[i + 1..])[sep];
      [s[..i]] + Split(s[i + 1..], sep)
  }

  /** `parts.join(sep)`: the pieces with one separator between neighbours,
      none before the first or after the last. */
  function Join(parts: seq<string>, sep: char): string
    decreases |parts|
  {
    if |parts| == 0 then ""
    else if |parts| == 1 then parts[0]
    else parts[0] + [sep] + Join(parts[1..], sep)
  }

  lemma {:induction false} JoinCons(p: string, parts: seq<string>, sep: char)
    requires |parts| > 0
    ensures Join([p] + parts, sep) == p + [sep] + Join(parts, sep)
  {
    assert ([p] + parts)[1..] == parts;
  }

  /** Splitting then joining gives the string back: `s.split(sep).join(sep) == s`. */
  lemma {:induction false} JoinSplit(s: string, sep: char)
    ensures Join(Split(s, sep), sep) == s
    decreases |s|
  {
    if sep in s {
      var i := FirstIndex(s, sep);
      JoinSplit(s[i + 1..], sep);
      JoinCons(s[..i], Split(s[i + 1..], sep), sep);
      assert s == s[..i] + [sep] + s[i + 1..];
    }
  }

  /** The first separator after a separator-free piece is the one right
      after it. */
  lemma FirstIndexAfter(p: string, sep: char, rest: string)
    requires sep !in p
    ensures sep in p + [sep] + rest && FirstIndex(p + [sep] + rest, sep) == |p|
  {
    var s := p + [sep] + rest;
    assert s[|p|] == sep;
  }

  /** Splitting a joined list of separator-free pieces gives the pieces back. */
  lemma {:induction false} SplitJoin(parts: seq<string>, sep: char)
    requires |parts| > 0
    requires forall i :: 0 <= i < |parts| ==> sep !in parts[i]
    ensures Split(Join(parts, sep), sep) == parts
    decreases |parts|
  {
    if |parts| > 1 {
      var tail := parts[1..];
      var rest := Join(tail, sep);
      var s := parts[0] + [sep] + rest;
      assert Join(parts, sep) == s;
      SplitJoin(tail, sep);
      FirstIndexAfter(parts[0], sep, rest);
      assert s[..|parts[0]|] == parts[0];
      assert s[|parts[0]| + 1..] == rest;
      assert parts == [parts[0]] + tail;
    }
  }

  /** Joining two non-empty lists puts exactly one separator between them. */
  lemma {:induction false} JoinAppend(a: seq<string>, b: seq<string>, sep: char)
    requires |a| > 0 && |b| > 0
    ensures Join(a + b, sep) == Join(a, sep) + [sep] + Join(b, sep)
    decreases |a|
  {
    if |a| == 1 {
      JoinCons(a[0], b, sep);
      assert a + b == [a[0]] + b;
    } else {
      JoinAppend(a[1..], b, sep);
      assert (a + b)[1..] == a[1..] + b;
    }
  }

  predicate EndsWith(s: string, suffix: string) {
    |suffix| <= |s| && s[|s| - |suffix|..] == suffix
  }

  lemma EndsWithAppend(s: string, suffix: string)
    ensures EndsWith(s + suffix, suffix)
    ensures (s + suffix)[..|s|] == s
  {
  }

  /** The characters ECMAScript counts as WhiteSpace or LineTerminator, which
      `trim` removes. */
  predicate IsJsWhitespace(c: char) {
    || c == '\t' || c == '\n' || c == '\r' || c == ' '
    || c as int == 0x0B || c as int == 0x0C || c as int == 0xA0
    || c as int == 0x1680 || (0x2000 <= c as int <= 0x200A)
    || c as int == 0x2028 || c as int == 0x2029 || c as int == 0x202F
    || c as int == 0x205F || c as int == 0x3000 || c as int == 0xFEFF
  }

  function TrimStart(s: string): (r: string)
    ensures |r| <= |s| && r == s[|s| - |r|..]
    ensures |r| > 0 ==> !IsJsWhitespace(r[0])
    ensures forall i :: 0 <= i < |s| - |r| ==> IsJsWhitespace(s[i])
  {
    if |s| > 0 && IsJsWhitespace(s[0]) then
      var r := TrimStart(s[1..]);
      assert s[1..][|s| - 1 - |r|..] == s[|s| - |r|..];
      assert forall i :: 1 <= i < |s| - |r| ==> s[i] == s[1..][i - 1];
      r
    else s
  }

  function TrimEnd(s: string): (r: string)
    ensures |r| <= |s| && r == s[..|r|]
    ensures |r| > 0 ==> !IsJsWhitespace(r[|r| - 1])
    ensures forall i :: |r| <= i < |s| ==> IsJsWhitespace(s[i])
  {
    if |s| > 0 && IsJsWhitespace(s[|s| - 1]) then
      var r := TrimEnd(s[..|s| - 1]);
      assert s[..|s| - 1][..|r|] == s[..|r|];
      assert forall i :: |r| <= i < |s| - 1 ==> s[i] == s[..|s| - 1][i];
      r
    else s
  }

  /** `s.trim()`: `s` without leading and trailing white space. */
  function Trim(s: string): string {
    TrimEnd(TrimStart(s))
  }

  // ---------------------------------------------------------------------
  // Decimal numerals, as JavaScript renders a non-negative integer count.

  function DigitChar(d: nat): char
    requires d < 10
  {
    "0123456789"[d]
  }

  predicate IsDigit(c: char) {
    '0' <= c <= '9'
  }

  /** Decimal rendering of `n` without leading zeros (`String(n)`). */
  function NatToString(n: nat): (r: string)
    ensures |r| > 0
    ensures forall i :: 0 <= i < |r| ==> IsDigit(r[i])
    ensures n > 0 ==> r[0] != '0'
  {
    if n < 10 then [DigitChar(n)] else NatToString(n / 10) + [DigitChar(n % 10)]
  }

  /** Value of a string of decimal digits; an independent reading of a
      numeral, used to state that a rendering denotes the right number. */
  function DecimalValue(s: string): nat
    requires forall i :: 0 <= i < |s| ==> IsDigit(s[i])
  {
    if |s| == 0 then 0
    else
      assert IsDigit(s[|s| - 1]);
      DecimalValue(s[..|s| - 1]) * 10 + (s[|s| - 1] as int - '0' as int) as nat
  }

  /** Rendering a count and reading it back gives the count. */
  lemma {:induction false} NatToStringValue(n: nat)
    ensures DecimalValue(NatToString(n)) == n
  {
    var r := NatToString(n);
    if n >= 10 {
      NatToStringValue(n / 10);
      assert r[..|r| - 1] == NatToString(n / 10);
    }
  }
}
